=== FILE: README.md ===
# Twilio AI call bridge — a Dafny model

This project models the core of a phone assistant built from two halves.

The **Go half** sits on an AnyCable node. It consists of:

- the Twilio media-stream executor, which turns Twilio's WebSocket frames (`connected`, `start`, `media`, `mark`, `dtmf`, `stop`) into AnyCable commands and RPCs;
- the realtime AI agent, which buffers the caller's audio, sends it to the AI endpoint and classifies the events that come back.

The **Rails half** is the `Twilio::MediaStreamChannel` behind each call. It consists of:

- the keypad menu, which reads out the tasks due today, tomorrow or this week;
- the transcript log;
- the four task tools the AI model may call (`get_tasks`, `create_task`, `complete_task`, `delete_task`);
- the tool-schema generator, which turns inline RBS signatures into JSON-Schema function specs;
- the `Todo` record with its validation, its `completed` flag and its scopes.

The two halves meet through a one-shot mailbox. The channel writes its answer into the `anycable_response` channel-state slot, and the executor reads it once and deletes it.

Modules, one per source file, plus three shared ones:

| module | models |
|---|---|
| `Base` | `Option`, `Result`, bytes |
| `Text` | Ruby string helpers: line splitting, `chomp`, `to_i`, integer printing, `join` |
| `Json` | an abstract JSON document; how Go's `encoding/json` fills struct fields from it; Ruby's compact generator |
| `Frames` | `cable/pkg/twilio/twilio.go` |
| `AgentConfig` | `cable/pkg/agent/config.go` |
| `Agent` | `cable/pkg/agent/agent.go` |
| `Executor` | `cable/pkg/twilio/executor.go` |
| `RbsTools` | `lib/rbs_tools.rb` |
| `OpenAITools` | `app/channels/concerns/openai_tools.rb` |
| `Todos` | `app/models/todo.rb` |
| `MediaStreamChannel` | `app/channels/twilio/media_stream_channel.rb` and `application_channel.rb` |
| `RpcBridge` | properties of the two halves together |

How each half is modelled:

- **Executor.** The AnyCable node is an abstract port. Every `Authenticated`, `Subscribe`, `Perform`, `Send` and `Disconnect` call is appended to an effect log. The node's answers come from the environment. A Go runtime panic is an outcome of its own, `Panicked`.
- **Agent.** The agent's send channel is a FIFO sequence.
- **Database.** The table is a sequence of rows. Dates are day numbers and times are seconds.
- **Go decoders.** `Frames.DecodeEnvelope` and the five decoders `Frames.MediaMessageFromJson`, `MarkMessageFromJson`, `DTMFMessageFromJson`, `StartMessageFromJson` and `StopMessageFromJson` model `encoding/json` filling the `twilio.go` types. They are reference decoders. What they do is stated by `Frames.EnvelopeRoundTrip`, the five `Frames.*MessageRoundTrip` lemmas and `RpcBridge.TransmitDecodesAsFrames`.
- **Parameters.** Text-to-speech, JSON parsing, date parsing and formatting, and base64 are passed in as parameters.

Where the code and its description differ, the model follows the code:

- **`openai_tools_schema` memoises only nil.** It memoises nil for a class without tools (`openai_tools.rb:12-14`). The specs it computes for a class with tools are never assigned, so they are recomputed on every call. `OpenAITools.NilSchemaIsMemoised` and `OpenAITools.SchemaStable` state both behaviours.
- **The channel identifier never varies.** `channelId` encodes only the constant channel name, so every session and every call uses the same identifier (`Executor.ChannelIdIsConstant`).
- **The agent callbacks are not defined in `agent.go`.** `executor.go:221-251` registers the transcript, audio and function-call callbacks, but `agent.go` defines none of those methods. The model therefore treats each callback as a function of the executor (`Executor.OnTranscript`, `Executor.OnAudio`, `Executor.OnFunctionCall`). Nothing in the model dispatches AI events to them.
- **A union's number/string choice is unused.** `property_type_from_rbs` computes that choice for a union and discards it, so every union is a string enum.

## Model

| member | source | states |
|---|---|---|
| Frames.EventNamesDistinct | cable/pkg/twilio/twilio.go:6-14 | the seven event discriminators are seven pairwise different strings |
| Frames.StartPayloadToJson | cable/pkg/twilio/twilio.go:16-29 | the start payload serialises to exactly the members accountSid, streamSid, callSid |
| Frames.StartPayloadRoundTrip | cable/pkg/twilio/twilio.go:16-29 | decoding what the start payload serialises to gives the same payload back |
| Frames.MediaPayloadToJson | cable/pkg/twilio/twilio.go:45-48 | a media payload has exactly the members payload and track |
| Frames.StopPayloadToJson | cable/pkg/twilio/twilio.go:58-61 | a stop payload has exactly the members accountSid and streamSid |
| Frames.MarkPayloadToJson | cable/pkg/twilio/twilio.go:71-73 | a mark payload has exactly the member name |
| Frames.DTMFPayloadToJson | cable/pkg/twilio/twilio.go:88-91 | a dtmf payload has exactly the members track and digit |
| Frames.EnvelopeLookups | cable/pkg/twilio/twilio.go:50-56 | in an envelope the event and payload are always found; streamSid and sequenceNumber are absent exactly when omitempty applies and the value is zero |
| Frames.EnvelopeRoundTrip | cable/pkg/twilio/twilio.go:31-99 | an envelope decodes back to its event, stream id, sequence number and payload whether or not omitempty dropped members |
| Frames.DecodeEnvelopeFrom | cable/pkg/twilio/twilio.go:31-99 | an object whose members decode one by one decodes as the envelope they make up |
| Frames.StartMessageToJson | cable/pkg/twilio/twilio.go:31-37 | a start message always carries streamSid and sequenceNumber |
| Frames.StopMessageToJson | cable/pkg/twilio/twilio.go:63-69 | a stop message always carries streamSid and sequenceNumber |
| Frames.MediaMessageToJson | cable/pkg/twilio/twilio.go:50-56 | a media message carries streamSid iff it is non-empty and sequenceNumber iff it is non-zero |
| Frames.MarkMessageToJson | cable/pkg/twilio/twilio.go:75-81 | a mark message carries streamSid iff it is non-empty and sequenceNumber iff it is non-zero |
| Frames.DTMFMessageToJson | cable/pkg/twilio/twilio.go:93-99 | a dtmf message carries streamSid iff it is non-empty and sequenceNumber iff it is non-zero |
| Frames.ClearMessageToJson | cable/pkg/twilio/twilio.go:83-86 | a clear message has only event and streamSid |
| Frames.ConnectedMessageToJson | cable/pkg/twilio/twilio.go:39-43 | a connected message has exactly event, protocol and version |
| Frames.MediaMessageRoundTrip | cable/pkg/twilio/twilio.go:45-56 | every media message survives encoding and Go decoding unchanged |
| Frames.MarkMessageRoundTrip | cable/pkg/twilio/twilio.go:71-81 | every mark message survives encoding and Go decoding unchanged |
| Frames.DTMFMessageRoundTrip | cable/pkg/twilio/twilio.go:88-99 | every dtmf message survives encoding and Go decoding unchanged |
| Frames.StartMessageRoundTrip | cable/pkg/twilio/twilio.go:16-37 | every start message survives encoding and Go decoding unchanged |
| Frames.StopMessageRoundTrip | cable/pkg/twilio/twilio.go:58-69 | every stop message survives encoding and Go decoding unchanged |
| Json.Lookup | cable/pkg/twilio/executor.go:308-309 | a decoded member is present iff its key occurs, and the value found is one the document holds under that key |
| Json.GoString | cable/pkg/twilio/executor.go:169-175 | a string struct field takes the member's text; a non-empty result was present as that string |
| Json.GoInt64 | cable/pkg/twilio/twilio.go:34 | an int64 struct field is in the 64-bit range and a non-zero result was present as that number |
| Json.GoStructFields | cable/pkg/twilio/executor.go:308-312 | an object decodes to its members, null to the zero struct, anything else is an error |
| Json.Render | app/channels/twilio/media_stream_channel.rb:62 | the JSON text of a document is never empty |
| AgentConfig.NewConfig | cable/pkg/agent/config.go:13-20 | the default URL, the given key unchanged, the default model and voice, empty prompt and no tools |
| Agent.NewAgent | cable/pkg/agent/agent.go:41-48 | a new agent has an empty buffer and outbox and no connection, cancel function or cancellation |
| Agent.EnqueueAudio | cable/pkg/agent/agent.go:94-109 | the buffer stays at or below 4800 bytes; flushed audio plus buffer gains exactly the input; a flush happens iff the appended buffer exceeds 4800 bytes and then empties it into one append message |
| Agent.FeedAudio | cable/pkg/agent/agent.go:94-109 | over any run of chunks nothing is lost or reordered, every message added is a flush of more than 4800 bytes, and the buffer ends at or below the threshold |
| Agent.WireText | cable/pkg/agent/agent.go:188-195 | only audio appends have wire text here, and the base64 text read back out of it is the encoding of exactly the message's bytes |
| Agent.FlushCarriesBuffer | cable/pkg/agent/agent.go:93-109 | a flush adds one message whose wire text carries the encoding of the whole buffer, the new chunk included |
| Agent.AppendTextRoundTrip | cable/pkg/agent/agent.go:188-195 | the base64 text of an append message is read back out of its wire text unchanged |
| Agent.KickOff | cable/pkg/agent/agent.go:51-92 | dials URL?model=Model with the bearer and realtime=v1 headers; on failure nothing changes; on success conn and cancelFn are set and exactly one session.update is queued |
| Agent.SessionUpdateIgnoresOverrides | cable/pkg/agent/agent.go:74-86 | two agents differing only in voice, prompt or tools queue the same session.update and dial the same request |
| Agent.SessionUpdateKeys | cable/pkg/agent/agent.go:74-83 | the session object has exactly the audio formats and transcription members, with no voice, instructions or tools |
| Agent.Close | cable/pkg/agent/agent.go:111-122 | the context is cancelled iff a cancel function was stored and the connection closed iff one was stored; nothing else changes |
| Agent.CloseNeverStarted | cable/pkg/agent/agent.go:111-122 | closing an agent whose dial failed does nothing |
| Agent.CloseIdempotent | cable/pkg/agent/agent.go:111-122 | closing twice leaves the agent as closing once does |
| Agent.Classify | cable/pkg/agent/agent.go:140-165 | a type is ignored iff it is one of the seventeen listed; it is a user transcription iff it is the transcription-completed type |
| Agent.MessageType | cable/pkg/agent/agent.go:134-138 | a non-empty type read from a message is its string type member |
| Agent.HandleMessage | cable/pkg/agent/agent.go:134-203 | the user is heard iff the message is a transcription-completed event with a non-empty transcript; a message is unhandled iff its type is not classified |
| Agent.ErrorsAreUnhandled | cable/pkg/agent/agent.go:138-165 | an error event, an object without a type and a non-object are all unhandled with the type shown |
| Executor.ChannelIdIsConstant | cable/pkg/twilio/executor.go:317-323 | every session uses the same channel identifier; it holds the channel name between twelve leading and two trailing characters of JSON framing |
| Executor.DecodeAppResponse | cable/pkg/twilio/executor.go:308-314 | the reply's raw data is the document's data member, absent when missing |
| Executor.PerformRPC | cable/pkg/twilio/executor.go:273-315 | one Perform with action set; a node error is a node failure; no reply or no slot gives no response; a present slot is deleted from the channel state and its decoded envelope is the response, or a malformed-response error when it does not decode |
| Executor.DecodeConfigData | cable/pkg/twilio/executor.go:193-197 | absent data fail as Go's unexpected end of input, null decodes to the zero configuration, any other non-object fails; a non-empty key or tools text was present as that string |
| Executor.ConfigFrom | cable/pkg/twilio/executor.go:201-217 | the key is taken as sent; model, voice, prompt and tools override the defaults only when non-empty |
| Executor.InitAgent | cable/pkg/twilio/executor.go:177-261 | asks for configure_openai first; never panics; keeps the connection, closure and SIDs; an agent is stored only after a successful dial of that agent's own request, right after the RPC |
| Executor.ConfigureAgent | cable/pkg/twilio/executor.go:181-258 | an RPC error fails with that error, an unexpected event fails naming the event and undecodable data fail as malformed, each with the RPC's session and effects; no reply is done with the RPC's effects only; decodable data start an agent built from the defaults overridden by the reply's non-empty values; a changed agent is connected and was dialled with its own request as the one added effect |
| Executor.InitAgentFailures | cable/pkg/twilio/executor.go:179-200 | a node error on the perform fails with that node failure and no change; an undecodable reply envelope, an unexpected event and undecodable configuration data each fail with their own error and only the perform as effect |
| Executor.InitAgentFailureKeepsInternal | cable/pkg/twilio/executor.go:179-258 | a failed initialisation leaves the agent, call SID and stream SID as they were |
| Executor.StartAgent | cable/pkg/twilio/executor.go:219-258 | one dial of the agent's request; the session changes only on success, to hold a connected agent with that configuration; a failed dial is an error |
| Executor.InitAgentWithoutReply | cable/pkg/twilio/executor.go:185-188 | without a reply there is exactly the configure_openai perform, no agent and no error |
| Executor.RedactSidAsWritten | cable/pkg/twilio/executor.go:72 | the five-character slice of the account SID exists iff the SID has at least five characters |
| Executor.RedactSid | cable/pkg/twilio/executor.go:72 | the redaction always exists and shows at most the first five characters |
| Executor.HandleStart | cable/pkg/twilio/executor.go:61-104 | a foreign account closes with Auth Failed and no other effect; an accepted one stores both ids, authenticates, subscribes, and unless subscribing failed starts the agent: the session, the outcome and the effects after the subscribe are exactly those of initAgent on the session holding the ids |
| Executor.HandleMedia | cable/pkg/twilio/executor.go:106-129 | the outbound track and agentless sessions are ignored; bad base64 is an error; decoded bytes go unchanged to EnqueueAudio |
| Executor.HandleDtmf | cable/pkg/twilio/executor.go:139-151 | exactly one handle_dtmf Perform carrying the digit; the session is the one the RPC leaves, and the outcome is the RPC's error unchanged, or done |
| Executor.HandleCommandWith | cable/pkg/twilio/executor.go:39-154 | connected at most once, stop always disconnects, everything else needs a connection, on a connected session start, media and dtmf frames are handled exactly by their own handlers and mark is a no-op, unknown commands fail; a panic changes nothing |
| Executor.HandleCommand | cable/pkg/twilio/executor.go:39-154 | the handler as written panics exactly on malformed media or dtmf data and on a foreign account SID shorter than five characters |
| Executor.HandleCommandCorrected | cable/pkg/twilio/executor.go:39-154 | with the redaction clamped, only malformed media or dtmf data panic, and every non-panicking input behaves as the source |
| Executor.ShortForeignSidPanics | cable/pkg/twilio/executor.go:71-75 | a foreign start frame with SID AC1 panics as written and closes with Auth Failed when corrected |
| Executor.Disconnect | cable/pkg/twilio/executor.go:156-164 | a stored agent is closed first, then the node disconnect is always last; its error is the outcome |
| Executor.OnTranscript | cable/pkg/twilio/executor.go:221-227 | one handle_transcript Perform with role, text and id; its errors are only logged |
| Executor.OnAudio | cable/pkg/twilio/executor.go:229-239 | nothing without a stream id; otherwise the media reply and then an ai-delta mark for the same stream |
| Executor.AudioMarkNameRoundTrip | cable/pkg/twilio/executor.go:238 | the item id is recovered unchanged from its mark name |
| Executor.OnFunctionCall | cable/pkg/twilio/executor.go:241-251 | one handle_function_call Perform without the call id; the result is handed back under the call id iff the reply is a function_call_result |
| Executor.Run | cable/pkg/twilio/executor.go:39-154 | the host's frame loop: one outcome per frame handled, the first being the first frame's own outcome; a run stops early only at a panic, which is its last outcome |
| Executor.NothingBeforeConnected | cable/pkg/twilio/executor.go:49-57 | for the handler as written and for the corrected redaction alike, before connecting, any run of frames other than connected and stop fails frame by frame with no effect and no change |
| Executor.ConnectsAtMostOnce | cable/pkg/twilio/executor.go:40-47 | for the handler as written and for the corrected redaction alike, once connected a session stays connected and every later connected frame fails with Already connected |
| Executor.OutboundMediaIgnored | cable/pkg/twilio/executor.go:106-112 | for the handler as written and for the corrected redaction alike, any run of outbound-track media frames succeeds with no effect and no change |
| RbsTools.LiteralJson | lib/rbs_tools.rb:29-31 | each literal is rendered as its own JSON value, a symbol as its name |
| RbsTools.EnumJson | lib/rbs_tools.rb:29-31 | the enum lists the union's literals in order |
| RbsTools.PropertyTypeFromRbs | lib/rbs_tools.rb:26-39 | type is integer iff the type is class Integer, else string; an enum iff a union; format date iff class Date |
| RbsTools.NumericUnionIsStringEnum | lib/rbs_tools.rb:28-31 | a union of numbers is still declared a string enum of those numbers |
| RbsTools.BlankRbs | lib/rbs_tools.rb:10 | a line starting with @rbs becomes empty, every other line is kept |
| RbsTools.StripRbs | lib/rbs_tools.rb:10 | the comment keeps its line count and each line is blanked iff it is an annotation |
| RbsTools.StripRbsPlain | lib/rbs_tools.rb:10 | a comment without annotation lines is unchanged |
| RbsTools.Description | lib/rbs_tools.rb:10 | no comment gives no description; otherwise the stripped comment with one line break chomped |
| RbsTools.DescriptionOfSignedComment | lib/rbs_tools.rb:10 | a one-line comment followed by its @rbs signature line describes the method by that line alone |
| RbsTools.KeywordProperties | lib/rbs_tools.rb:6-7 | a keyword map keeps its length and order, and each entry is that keyword's name with the schema of its RBS type |
| RbsTools.RequiredKeywords | lib/rbs_tools.rb:6 | the required keywords, each mapped to its schema property |
| RbsTools.OptionalKeywords | lib/rbs_tools.rb:7 | the optional keywords, each mapped to its schema property |
| Text.Chomp | lib/rbs_tools.rb:10 | a trailing "\r\n" is removed as a pair, otherwise one trailing "\n" or "\r" is removed, and the text is unchanged iff it does not end in a line break |
| Text.ChompNewline | lib/rbs_tools.rb:10 | chomping a text plus one newline gives the text back |
| Text.ToINonNumeric | app/channels/twilio/media_stream_channel.rb:30 | a key that starts with no sign, digit or space reads as 0 |
| Text.ToIOfIntToString | app/channels/twilio/media_stream_channel.rb:30 | reading a printed integer back gives the integer |
| OpenAITools.Tool | app/channels/concerns/openai_tools.rb:5-7 | registering a tool appends its name after all earlier ones |
| OpenAITools.RegisterAll | app/channels/concerns/openai_tools.rb:5-9 | registering several tools appends them in declaration order |
| OpenAITools.Put | app/channels/concerns/openai_tools.rb:29-33 | hash assignment: the new property is present, other keys survive, nothing new appears |
| OpenAITools.PutUnique | app/channels/concerns/openai_tools.rb:29-33 | hash assignment never duplicates a key |
| OpenAITools.PutKeepsNames | app/channels/concerns/openai_tools.rb:29-33 | after a hash assignment the assigned name and every earlier name are still present |
| OpenAITools.PutAll | app/channels/concerns/openai_tools.rb:27-34 | assigning a list of properties keeps keys unique and every earlier and assigned name present |
| OpenAITools.SpecOf | app/channels/concerns/openai_tools.rb:22-50 | the spec carries the tool's name, its method description and, as required, exactly the required keyword names in order |
| OpenAITools.SpecOfTwo | app/channels/concerns/openai_tools.rb:22-34 | two differently named required keywords and no optional ones publish exactly those two properties, in order, both required |
| OpenAITools.SpecOfProperties | app/channels/concerns/openai_tools.rb:22-34 | every required name is a property; properties come only from the required and optional keywords; every optional one is present; names are unique |
| OpenAITools.Specs | app/channels/concerns/openai_tools.rb:19-54 | the specs are those of the registered tools with a declaration, in registration order, each built from its declaration |
| OpenAITools.DeclaredMembers | app/channels/concerns/openai_tools.rb:19-20 | a tool is published iff it is registered and declared |
| OpenAITools.Schema | app/channels/concerns/openai_tools.rb:11-56 | nil iff already assigned or no tools (assigning it then); raises iff tools exist and signatures are missing; otherwise exactly the specs of the registered tools that have signatures, in registration order, each built from its signature |
| OpenAITools.SchemaCorrected | app/channels/concerns/openai_tools.rb:11-56 | missing signatures give nil; with signatures it is exactly the specs of the declared registered tools and agrees with the schema as written |
| OpenAITools.MissingSignaturesRaise | app/channels/concerns/openai_tools.rb:16-20 | a registered tool without readable signatures raises as written and gives nil when corrected |
| OpenAITools.NilSchemaIsMemoised | app/channels/concerns/openai_tools.rb:12-14 | once a class without tools answered nil, tools registered later are never published |
| OpenAITools.SchemaStable | app/channels/concerns/openai_tools.rb:11-19 | a class with tools gives the same answer on every call |
| OpenAITools.SpecJson | app/channels/concerns/openai_tools.rb:36-50 | type function, the method name, the description or null, parameters of type object with the required list and properties |
| OpenAITools.SchemaJson | app/channels/twilio/media_stream_channel.rb:62 | no schema renders as null; otherwise one function spec per tool, in order |
| Todos.Errors | app/models/todo.rb:4 | no errors iff description is present and deadline is set; each message appears iff its attribute is blank |
| Todos.BeforeValidation | app/models/todo.rb:8 | completed_at is set iff completed, to the current time |
| Todos.Validate | app/models/todo.rb:4-8 | saving fails iff description is blank or deadline missing; a saved record has passed the hook and has no errors |
| Todos.Load | app/models/todo.rb:9 | a loaded record is completed iff completed_at is present, and stores back to the same row |
| Todos.LoadAfterValidate | app/models/todo.rb:8-9 | what validation saves is loaded back unchanged, with the flag the caller set |
| Todos.ValidateIdempotent | app/models/todo.rb:8 | validating a valid record again at the same time changes nothing |
| Todos.Filter | app/models/todo.rb:16-21 | a scope keeps exactly the rows its where clause accepts |
| Todos.CompletedIncompletePartition | app/models/todo.rb:16-17 | completed and incomplete together hold every row exactly as often as the table does |
| Todos.CurrentStalePartition | app/models/todo.rb:19-21 | current and stale together are exactly the incomplete rows that have a deadline |
| Todos.SortRows | app/models/todo.rb:19-21 | ordering by deadline is a permutation that is sorted in the chosen direction |
| Todos.Current | app/models/todo.rb:19 | the incomplete rows due today or later, in ascending deadline order |
| Todos.Stale | app/models/todo.rb:21 | the incomplete rows due yesterday or earlier, in descending deadline order |
| Todos.Archive | app/models/todo.rb:20 | the completed rows whose deadline is no earlier than a week ago, in descending deadline order |
| Todos.CurrentStartsEarliest | app/models/todo.rb:19 | any ordering current may return starts with the earliest deadline still ahead |
| Todos.StaleStartsLatest | app/models/todo.rb:21 | any ordering stale may return starts with the most recently missed deadline |
| Todos.FindById | app/channels/twilio/media_stream_channel.rb:115 | a row with the id is found iff one exists |
| Todos.RemoveId | app/channels/twilio/media_stream_channel.rb:129 | destroying keeps exactly the rows with other ids |
| Todos.ReplaceId | app/channels/twilio/media_stream_channel.rb:117 | updating replaces the row with that id and leaves every other row in place |
| MediaStreamChannel.ReplyWith | app/channels/twilio/application_channel.rb:10-14 | the reply occupies only the anycable_response slot, holding the event and the data |
| MediaStreamChannel.StreamFrame | app/channels/twilio/media_stream_channel.rb:147-166 | a transmitted frame carries its event, the stream id (null when unknown) and its one nested string member |
| MediaStreamChannel.TransmitMessage | app/channels/twilio/media_stream_channel.rb:144-167 | a media frame with the audio, then a mark frame named by the id, both for the same stream |
| MediaStreamChannel.WeekStart | app/channels/twilio/media_stream_channel.rb:37 | the Monday on or before the day, at most six days earlier |
| MediaStreamChannel.PeriodFor | app/channels/twilio/media_stream_channel.rb:33-38 | a period exists iff the digit is 1, 2 or 3: today, tomorrow, or the Monday-to-Sunday week holding today |
| MediaStreamChannel.Phrase | app/channels/twilio/media_stream_channel.rb:42-46 | no tasks gives the none sentence; otherwise the period header followed by the descriptions joined with commas |
| MediaStreamChannel.Descriptions | app/channels/twilio/media_stream_channel.rb:43 | each row's description in order, a missing one printing as nothing |
| MediaStreamChannel.HandleDtmf | app/channels/twilio/media_stream_channel.rb:29-49 | silent iff the digit is not 1 to 3; otherwise it speaks the incomplete tasks due in the period under the mark dtmf_response_digit |
| MediaStreamChannel.DigitOf | app/channels/twilio/media_stream_channel.rb:30 | the pressed digit is Ruby's `to_i` of the digit text, and 0 when the digit is missing |
| MediaStreamChannel.StarAndHashAreSilent | app/channels/twilio/media_stream_channel.rb:30-40 | star, hash and a missing digit read as 0 and transmit nothing |
| MediaStreamChannel.MenuDigitRoundTrip | app/channels/twilio/media_stream_channel.rb:30-48 | a pressed menu digit is read as itself and named in the mark id |
| MediaStreamChannel.DtmfReadsDueTasks | app/channels/twilio/media_stream_channel.rb:35-37 | a row is read out iff it is incomplete and due within the chosen period |
| MediaStreamChannel.TranscriptDirection | app/channels/twilio/media_stream_channel.rb:68 | the direction is < iff the role is user, and > otherwise |
| MediaStreamChannel.TranscriptLine | app/channels/twilio/media_stream_channel.rb:68-70 | the log line is the direction, a space and the text |
| MediaStreamChannel.RowJson | app/channels/twilio/media_stream_channel.rb:98 | a task is shown with exactly id, description and deadline, in column order |
| MediaStreamChannel.RowsJson | app/channels/twilio/media_stream_channel.rb:98 | every task shown, in order |
| MediaStreamChannel.TaskRange | app/channels/twilio/media_stream_channel.rb:89-96 | a day range exists iff the period is today, tomorrow or week |
| MediaStreamChannel.PeriodEnumSelectsRanges | app/channels/twilio/media_stream_channel.rb:87-96 | every value of the published period enum selects a day range |
| MediaStreamChannel.GetTasksSpec | app/channels/twilio/media_stream_channel.rb:86-88 | get_tasks publishes exactly one property, the required `period`, as a string enum of today, tomorrow and week |
| MediaStreamChannel.CreateTaskSpec | app/channels/twilio/media_stream_channel.rb:100-102 | create_task publishes exactly the required `deadline`, a date string, and `description`, a string, in that order |
| MediaStreamChannel.GetTasksResult | app/channels/twilio/media_stream_channel.rb:88-99 | the todos member lists the incomplete tasks in the period's range |
| MediaStreamChannel.NextId | app/channels/twilio/media_stream_channel.rb:104-105 | a new task's id is used by no existing row |
| MediaStreamChannel.FailedJson | app/channels/twilio/media_stream_channel.rb:108 | status failed with the message |
| MediaStreamChannel.CastString | app/channels/twilio/media_stream_channel.rb:104 | the description cast: nil iff the value is null, a string kept, an integer's text reads back as that integer, true and false as "t" and "f" |
| MediaStreamChannel.CastDate | app/channels/twilio/media_stream_channel.rb:104 | the deadline cast: a day only from a string, the day that string parses to; null and an object give nil |
| MediaStreamChannel.CreateTaskCall | app/channels/twilio/media_stream_channel.rb:103-110 | a valid task is appended and answered created with its fields; an invalid one changes nothing and answers failed with the joined messages |
| MediaStreamChannel.FindTask | app/channels/twilio/media_stream_channel.rb:115 | a task is found iff the id is a number some row carries |
| MediaStreamChannel.CompleteTaskCall | app/channels/twilio/media_stream_channel.rb:114-122 | a missing task answers Task not found; a found one is stamped and answers completed; it raises iff the found record is invalid |
| MediaStreamChannel.DeleteTaskCall | app/channels/twilio/media_stream_channel.rb:126-134 | a missing task answers Task not found; a found one is removed with every row of its id and answers completed |
| MediaStreamChannel.Invoke | app/channels/twilio/media_stream_channel.rb:81-134 | arguments that are not an object raise; a name that is no tool raises; keys other than exactly the tool's declared keywords raise; exactly those keywords run get_tasks, create_task, complete_task or delete_task on their values; get_tasks never changes the table |
| MediaStreamChannel.HandleFunctionCall | app/channels/twilio/media_stream_channel.rb:73-84 | a missing name or bad arguments raise first; an unregistered name invokes and replies nothing; a registered name is sent to its tool with the parsed arguments, and the tool's result is replied as openai.function_call_result with the table it leaves, or its error is raised with no reply |
| MediaStreamChannel.GetTasksCallReplies | app/channels/twilio/media_stream_channel.rb:73-99 | a get_tasks call with just a period replies the incomplete tasks in that period and changes nothing |
| MediaStreamChannel.CreateTaskCallReplies | app/channels/twilio/media_stream_channel.rb:73-110 | a create_task call with just a deadline and a description replies create_task's answer and keeps the table it leaves |
| MediaStreamChannel.UnregisteredNameIsIgnored | app/channels/twilio/media_stream_channel.rb:77 | a public method that is not a tool, such as handle_dtmf, is never invoked |
| MediaStreamChannel.CompleteTaskShapes | app/channels/twilio/media_stream_channel.rb:114-122 | on valid tasks, completing answers completed iff the id exists |
| MediaStreamChannel.ConfigureOpenAI | app/channels/twilio/media_stream_channel.rb:52-65 | nothing iff realtime is disabled; otherwise the configuration reply whose tools member is the schema as JSON text, the text null for a class without tools |
| MediaStreamChannel.ConfigurationData | app/channels/twilio/media_stream_channel.rb:56-64 | exactly four members: api_key, voice and prompt as given (null when absent) and the tools text |
| RpcBridge.ReplyWithReachesExecutor | cable/pkg/twilio/executor.go:298-314 | what the channel replies is read by the executor as that event and data and the slot is cleared |
| RpcBridge.ConfigurationReachesAgent | cable/pkg/twilio/executor.go:177-217 | the channel's configuration starts an agent with its key, prompt, voice or the default, the default model and the schema text as tools |
| RpcBridge.ConfigurationDecodes | cable/pkg/twilio/executor.go:194-199 | the channel's configuration data decodes in Go to its key, voice, prompt and tools text, with an empty model |
| RpcBridge.ModelAbsent | app/channels/twilio/media_stream_channel.rb:56-64 | the channel's configuration data has no model member |
| RpcBridge.DecodeFromMembers | cable/pkg/twilio/executor.go:169-199 | members that decode one by one as Go strings decode as the whole configuration |
| RpcBridge.ResultReplyReachesAgent | cable/pkg/twilio/executor.go:241-251 | any function-call-result reply reaches the agent, after the one perform, as the result under the kept call id |
| RpcBridge.FunctionResultReachesAgent | cable/pkg/twilio/executor.go:241-251 | a tool result the channel replies with reaches the agent under the kept call id |
| RpcBridge.DeclinedCallGivesNoResult | cable/pkg/twilio/executor.go:241-251 | a call the channel declines gives the agent nothing back |
| RpcBridge.TransmitDecodesAsFrames | app/channels/twilio/media_stream_channel.rb:144-167 | the two transmitted frames decode in Go as a media message with the audio and a mark message with the id |
| RpcBridge.MediaFrameDecodes | cable/pkg/twilio/twilio.go:50-56 | the channel's media frame decodes as a trackless media message for its stream |
| RpcBridge.MarkFrameDecodes | cable/pkg/twilio/twilio.go:75-81 | the channel's mark frame decodes as a mark message for its stream |

## Left out

- Concurrency in the agent: goroutines, mutexes, the capacity-128 send channel and the reader and writer loops. Each operation is atomic and the send channel is an unbounded sequence.
- WebSocket dialling, reading and writing, and the AnyCable node's internals. Their results are environment parameters or entries in the effect log.
- Base64 encoding and decoding. These are opaque parameters, so the flush properties are stated on raw bytes.
- `utils.ToJSON` and Go's JSON encoder. The identifiers and Perform payloads are kept as string maps. Go's case-insensitive matching of member names is not modelled.
- Go strings are byte strings, while the model uses character sequences. The five-character slice is therefore counted in characters.
- Message text that is not JSON. The agent's reader is given a decoded document, and a non-object stands for text that is not an object.
- `RBSTools.method_sigs_for_class`: file reading and the Prism and rbs-inline parsers. Its result is a parameter, and its nil result is the `None` case.
- RbsTools.PropertyTypeFromRbs: a union whose members are not all literals is not modelled. The source assumes literals.
- `AIService` text-to-speech, `TwilioService`, broadcasts and all logging. Text-to-speech is a parameter, and the rest has no stated behaviour.
- The `subscribed` greeting, with its random voice, and `unsubscribed`.
- Ruby `to_i` on underscores and other non-ASCII digits, and `blank?` on Unicode white space. Only ASCII white space is modelled.
- Dates and times. They are day numbers and seconds, and formatting and parsing are parameters. The week starts on Monday, the Rails default. The archive's one-week-ago bound is taken at day granularity.
- MediaStreamChannel.NextId: the database's id assignment is abstracted as one more than the largest id.
- MediaStreamChannel.FindTask: `find_by` casting a numeric string id is not modelled. Only JSON numbers find a task.
- MediaStreamChannel.CastDate: ActiveModel keeps a value that is neither a string, nil nor a hash uncast (a number, true, a non-empty array). The model reads it as nil, because what the database stores for such a deadline is not part of the source. False and an empty array are blank either way.
- CreateTaskCall: with a non-string deadline such as a JSON number, the deadline's presence validation passes in the source and the database adapter decides what is saved. The model answers failed with "Deadline can't be blank" instead, following CastDate.
- Json.Render: only non-emptiness is stated. The escaping of Ruby's generator is written out, but no property about it is proved.
- Agent.MessageType: states only that a non-empty type was present as a string. It does not state when the type is empty.
- JSON numbers are integers. Numbers with a fraction or an exponent are not modelled. Go and Ruby read them as floats: `encoding/json` rejects one for an int64 field, and `find_by` would cast a `1.5` id.
- Json.GoString, Json.GoInt64: with a member name repeated in an object, only the last occurrence is decoded, and Frames.NestedFields likewise keeps the last nested object. Go's decoder applies every occurrence in order, so a later null keeps the earlier value and repeated objects merge. The frames and replies this system exchanges do not repeat member names.
- OpenAITools.Put: states which properties are present, not the position an existing key keeps.
- Todos.Filter: states membership in both directions. Table order and multiplicity are used by the partition lemmas but are not stated on it.
- Agent.Classify: states membership in the set of ignored types. It does not count that set's seventeen entries.

## Findings

| source | as written | input that shows it | evidently intended | confidence | as-written member | corrected member |
|---|---|---|---|---|---|---|
| cable/pkg/twilio/executor.go:72 | the auth-failure log slices the first five characters of the frame's account SID | configured SID `AC2`, start frame with account SID `AC1`: the slice is out of range and the handler panics before disconnecting | show at most five characters, then close with "Auth Failed" | high; not executed | Executor.HandleCommand, Executor.ShortForeignSidPanics | Executor.HandleCommandCorrected, Executor.RedactSid |
| app/channels/concerns/openai_tools.rb:16-20 | when the signature reader returns nil (lib/rbs_tools.rb:45 and 65), the inject calls `key?` on nil | a class with a registered tool whose source file is not found: NoMethodError | no schema (nil), as the reader's own assignment of nil to the schema variable shows | medium; not executed | OpenAITools.Schema, OpenAITools.MissingSignaturesRaise | OpenAITools.SchemaCorrected |

=== FILE: agent.dfy ===
/** The realtime AI agent: an audio accumulator flushed to a FIFO outbox,
    the connection handshake, closing, and classification of inbound events.
    The reader and writer goroutines are not modelled; the outbox is the
    sequence of every message handed to the send channel, in order. */
module Agent {
  import opened Base
  import opened Json
  import opened AgentConfig
  import Text

  /** One 20 ms packet of 8 kHz mu-law audio. */
  const PacketBytes: nat := 320
  /** Audio is flushed once more than 15 packets (300 ms) are buffered. */
  const BytesPerFlush: nat := PacketBytes * 15

  /** A message handed to the send channel. */
  datatype OutMsg =
    | SessionUpdate(message: Json)
    | AudioAppend(audio: seq<byte>)

  datatype Agent = Agent(
    conf: Config,
    buffer: seq<byte>,
    // whether KickOff stored a connection and a cancel function
    conn: bool,
    cancelFn: bool,
    // whether the context derived at KickOff has been cancelled
    cancelled: bool,
    outbox: seq<OutMsg>)

  function NewAgent(conf: Config): (a: Agent)
    ensures a.conf == conf && a.buffer == [] && a.outbox == []
    ensures !a.conn && !a.cancelFn && !a.cancelled
  {
    Agent(conf, [], false, false, false, [])
  }

  // ---------------------------------------------------------------------------
  // Audio

  /** The audio bytes carried by a run of outbox messages, in order. */
  function AudioOf(msgs: seq<OutMsg>): seq<byte> {
    if msgs == [] then []
    else
      var last := msgs[|msgs| - 1];
      AudioOf(msgs[..|msgs| - 1]) + (if last.AudioAppend? then last.audio else [])
  }

  lemma AudioOfSnoc(msgs: seq<OutMsg>, m: OutMsg)
    ensures AudioOf(msgs + [m]) == AudioOf(msgs) + (if m.AudioAppend? then m.audio else [])
  {
    assert (msgs + [m])[..|msgs|] == msgs;
  }

  /** EnqueueAudio: append to the buffer; when the buffer then holds strictly
      more than BytesPerFlush bytes, hand all of it to the outbox as one
      append message and empty the buffer. It never fails. */
  function EnqueueAudio(a: Agent, audio: seq<byte>): (r: Agent)
    ensures |r.buffer| <= BytesPerFlush
    ensures AudioOf(r.outbox) + r.buffer == AudioOf(a.outbox) + a.buffer + audio
    ensures |a.buffer + audio| > BytesPerFlush ==>
              r.buffer == [] && r.outbox == a.outbox + [AudioAppend(a.buffer + audio)]
    ensures |a.buffer + audio| <= BytesPerFlush ==> r.outbox == a.outbox
    ensures r.conf == a.conf && r.conn == a.conn && r.cancelFn == a.cancelFn && r.cancelled == a.cancelled
  {
    var buffered := a.buffer + audio;
    if |buffered| > BytesPerFlush then
      AudioOfSnoc(a.outbox, AudioAppend(buffered));
      a.(buffer := [], outbox := a.outbox + [AudioAppend(buffered)])
    else
      a.(buffer := buffered)
  }

  function Flatten(chunks: seq<seq<byte>>): seq<byte> {
    if chunks == [] then [] else Flatten(chunks[..|chunks| - 1]) + chunks[|chunks| - 1]
  }

  /** Every message added to `after` beyond `before` is a flush of more than
      BytesPerFlush bytes. */
  ghost predicate OnlyFlushesAdded(before: seq<OutMsg>, after: seq<OutMsg>) {
    && before <= after
    && forall i :: |before| <= i < |after| ==>
         after[i].AudioAppend? && |after[i].audio| > BytesPerFlush
  }

  /** One EnqueueAudio keeps the conservation and flush invariants of a feed. */
  lemma FeedStep(a: Agent, r: Agent, fed: seq<byte>, chunk: seq<byte>)
    requires AudioOf(r.outbox) + r.buffer == AudioOf(a.outbox) + a.buffer + fed
    requires OnlyFlushesAdded(a.outbox, r.outbox)
    ensures AudioOf(EnqueueAudio(r, chunk).outbox) + EnqueueAudio(r, chunk).buffer
            == AudioOf(a.outbox) + a.buffer + (fed + chunk)
    ensures OnlyFlushesAdded(a.outbox, EnqueueAudio(r, chunk).outbox)
  {
    var n := EnqueueAudio(r, chunk);
    if |r.buffer + chunk| > BytesPerFlush {
      assert n.outbox == r.outbox + [AudioAppend(r.buffer + chunk)];
    } else {
      assert n.outbox == r.outbox;
    }
    calc {
      AudioOf(n.outbox) + n.buffer;
      AudioOf(r.outbox) + r.buffer + chunk;
      (AudioOf(a.outbox) + a.buffer + fed) + chunk;
      AudioOf(a.outbox) + a.buffer + (fed + chunk);
    }
  }

  /** Feeding a stream of chunks one EnqueueAudio at a time loses and reorders
      nothing: the flushed audio followed by the buffer is exactly everything
      fed, every flush is above the threshold, and the buffer stays at or below it. */
  method FeedAudio(a: Agent, chunks: seq<seq<byte>>) returns (r: Agent)
    ensures AudioOf(r.outbox) + r.buffer == AudioOf(a.outbox) + a.buffer + Flatten(chunks)
    ensures |chunks| > 0 ==> |r.buffer| <= BytesPerFlush
    ensures OnlyFlushesAdded(a.outbox, r.outbox)
    ensures r.conf == a.conf && r.conn == a.conn && r.cancelFn == a.cancelFn
  {
    r := a;
    var i := 0;
    while i < |chunks|
      invariant 0 <= i <= |chunks|
      invariant AudioOf(r.outbox) + r.buffer == AudioOf(a.outbox) + a.buffer + Flatten(chunks[..i])
      invariant i > 0 ==> |r.buffer| <= BytesPerFlush
      invariant OnlyFlushesAdded(a.outbox, r.outbox)
      invariant r.conf == a.conf && r.conn == a.conn && r.cancelFn == a.cancelFn
    {
      FeedStep(a, r, Flatten(chunks[..i]), chunks[i]);
      assert chunks[..i + 1][..i] == chunks[..i];
      assert Flatten(chunks[..i + 1]) == Flatten(chunks[..i]) + chunks[i];
      r := EnqueueAudio(r, chunks[i]);
      i := i + 1;
    }
    assert chunks[..|chunks|] == chunks;
  }

  const AppendPrefix := "{\"type\":\"input_audio_buffer.append\",\"audio\": \""
  const AppendSuffix := "\"}"

  /** The wire text of an audio append, around the base64 text of the audio. */
  function AppendText(encoded: string): string {
    AppendPrefix + encoded + AppendSuffix
  }

  /** Reads the base64 text back out of an append message. */
  function AppendedAudio(text: string): Option<string> {
    if |text| >= |AppendPrefix| + |AppendSuffix|
       && text[..|AppendPrefix|] == AppendPrefix
       && text[|text| - |AppendSuffix|..] == AppendSuffix
    then Some(text[|AppendPrefix|..|text| - |AppendSuffix|])
    else None
  }

  lemma AppendTextRoundTrip(encoded: string)
    ensures AppendedAudio(AppendText(encoded)) == Some(encoded)
  {
    var t := AppendText(encoded);
    assert t[..|AppendPrefix|] == AppendPrefix;
    assert t[|t| - |AppendSuffix|..] == AppendSuffix;
    assert t[|AppendPrefix|..|t| - |AppendSuffix|] == encoded;
  }

  /** The text sendAudio puts on the send channel for an outbox message,
      given the base64 encoder: an audio append carries the encoding of
      exactly its bytes. The session.update text is Go's JSON rendering of
      its message, which is not part of this model. */
  function WireText(m: OutMsg, base64: seq<byte> -> string): (r: Option<string>)
    ensures r.Some? <==> m.AudioAppend?
    ensures m.AudioAppend? ==> AppendedAudio(r.value) == Some(base64(m.audio))
  {
    match m
    case AudioAppend(audio) =>
      AppendTextRoundTrip(base64(audio));
      Some(AppendText(base64(audio)))
    case SessionUpdate(_) => None
  }

  /** A flush puts on the wire the encoding of the whole buffer, the new
      chunk included, in one append message. */
  lemma FlushCarriesBuffer(a: Agent, audio: seq<byte>, base64: seq<byte> -> string)
    requires |a.buffer + audio| > BytesPerFlush
    ensures var r := EnqueueAudio(a, audio);
      && |r.outbox| == |a.outbox| + 1
      && AppendedAudio(WireText(r.outbox[|a.outbox|], base64).value) == Some(base64(a.buffer + audio))
  {
    var r := EnqueueAudio(a, audio);
    assert r.outbox[|a.outbox|] == AudioAppend(a.buffer + audio);
  }

  // ---------------------------------------------------------------------------
  // Connecting and closing

  /** The session.update control message: mu-law audio both ways and whisper-1
      transcription. Members are in the sorted order Go prints map keys in. */
  function SessionUpdateMessage(): Json {
    Obj([
      Field("session", Obj([
        Field("input_audio_format", Str("g711_ulaw")),
        Field("input_audio_transcription", Obj([Field("model", Str("whisper-1"))])),
        Field("output_audio_format", Str("g711_ulaw"))])),
      Field("type", Str("session.update"))])
  }

  datatype DialRequest = DialRequest(url: string, headers: map<string, seq<string>>)

  function DialRequestFor(conf: Config): DialRequest {
    DialRequest(conf.url + "?model=" + conf.model,
                map["Authorization" := ["Bearer " + conf.key], "OpenAI-Beta" := ["realtime=v1"]])
  }

  datatype KickOffStep = KickOffStep(agent: Agent, dial: DialRequest, connected: bool)

  /** KickOff: dial the endpoint; `dialSucceeds` is the outcome of the dial.
      On failure nothing changes. On success the connection and the cancel
      function are stored and one session.update is sent. */
  function KickOff(a: Agent, dialSucceeds: bool): (s: KickOffStep)
    ensures s.dial.url == a.conf.url + "?model=" + a.conf.model
    ensures s.dial.headers.Keys == {"Authorization", "OpenAI-Beta"}
    ensures s.dial.headers["Authorization"] == ["Bearer " + a.conf.key]
    ensures s.dial.headers["OpenAI-Beta"] == ["realtime=v1"]
    ensures s.connected == dialSucceeds
    ensures !dialSucceeds ==> s.agent == a
    ensures dialSucceeds ==> s.agent.conn && s.agent.cancelFn && !s.agent.cancelled
    ensures dialSucceeds ==> s.agent.outbox == a.outbox + [SessionUpdate(SessionUpdateMessage())]
    ensures s.agent.buffer == a.buffer && s.agent.conf == a.conf
  {
    var dial := DialRequestFor(a.conf);
    if dialSucceeds then
      KickOffStep(a.(conn := true, cancelFn := true, cancelled := false,
                     outbox := a.outbox + [SessionUpdate(SessionUpdateMessage())]), dial, true)
    else
      KickOffStep(a, dial, false)
  }

  /** The session.update sent does not depend on the configured voice, prompt
      or tools: none of them reaches the AI session. */
  lemma SessionUpdateIgnoresOverrides(a: Agent, b: Agent, dialSucceeds: bool)
    requires a.outbox == b.outbox
    requires a.conf.url == b.conf.url && a.conf.key == b.conf.key && a.conf.model == b.conf.model
    ensures KickOff(a, dialSucceeds).agent.outbox == KickOff(b, dialSucceeds).agent.outbox
    ensures KickOff(a, dialSucceeds).dial == KickOff(b, dialSucceeds).dial
  {
  }

  lemma SessionUpdateKeys()
    ensures var session := Get(SessionUpdateMessage(), "session").value;
      && Keys(session.fields) == ["input_audio_format", "input_audio_transcription", "output_audio_format"]
      && !HasKey(session, "voice") && !HasKey(session, "instructions") && !HasKey(session, "tools")
  {
    var fs := SessionUpdateMessage().fields;
    assert Lookup(fs, "session") == Some(fs[0].value) by {
      assert fs[..1] == [fs[0]];
    }
  }

  datatype CloseEffect = CancelContext | CloseConnection

  datatype CloseStep = CloseStep(agent: Agent, effects: seq<CloseEffect>)

  /** Close: cancel the stored context and close the stored connection, each
      only if KickOff stored it. */
  function Close(a: Agent): (s: CloseStep)
    ensures CancelContext in s.effects <==> a.cancelFn
    ensures CloseConnection in s.effects <==> a.conn
    ensures s.effects == [] <==> !a.cancelFn && !a.conn
    ensures s.agent.cancelled == (a.cancelled || a.cancelFn)
    ensures s.agent == a.(cancelled := s.agent.cancelled)
  {
    var effects := (if a.cancelFn then [CancelContext] else []) + (if a.conn then [CloseConnection] else []);
    CloseStep(a.(cancelled := a.cancelled || a.cancelFn), effects)
  }

  /** Closing an agent whose KickOff never succeeded does nothing. */
  lemma CloseNeverStarted(conf: Config)
    ensures Close(KickOff(NewAgent(conf), false).agent) == CloseStep(NewAgent(conf), [])
  {
  }

  /** Closing twice leaves the agent as closing once does. */
  lemma CloseIdempotent(a: Agent)
    ensures Close(Close(a).agent).agent == Close(a).agent
    ensures Close(Close(a).agent).effects == Close(a).effects
  {
  }

  // ---------------------------------------------------------------------------
  // Inbound events

  const TranscriptionCompleted := "conversation.item.input_audio_transcription.completed"

  /** The event types the reader observes without acting on them. */
  const IgnoredTypes: set<string> := {
    "session.created", "session.updated",
    "input_audio_buffer.speech_started", "input_audio_buffer.speech_stopped", "input_audio_buffer.committed",
    "response.created", "rate_limits.updated", "response.output_item.added", "conversation.item.created",
    "response.content_part.added", "response.audio.delta", "response.audio_transcript.delta",
    "response.audio.done", "response.audio_transcript.done", "response.content_part.done",
    "response.output_item.done", "response.done"
  }

  datatype Inbound = Ignored | UserTranscription | Unhandled

  /** The reader's type switch. */
  function Classify(t: string): (k: Inbound)
    ensures k == Ignored <==> t in IgnoredTypes
    ensures k == UserTranscription <==> t == TranscriptionCompleted
  {
    match t
    case "session.created" => Ignored
    case "session.updated" => Ignored
    case "input_audio_buffer.speech_started" => Ignored
    case "input_audio_buffer.speech_stopped" => Ignored
    case "input_audio_buffer.committed" => Ignored
    case "conversation.item.input_audio_transcription.completed" => UserTranscription
    case "response.created" => Ignored
    case "rate_limits.updated" => Ignored
    case "response.output_item.added" => Ignored
    case "conversation.item.created" => Ignored
    case "response.content_part.added" => Ignored
    case "response.audio.delta" => Ignored
    case "response.audio_transcript.delta" => Ignored
    case "response.audio.done" => Ignored
    case "response.audio_transcript.done" => Ignored
    case "response.content_part.done" => Ignored
    case "response.output_item.done" => Ignored
    case "response.done" => Ignored
    case _ => Unhandled
  }

  /** The `type` member as the reader sees it: decoding errors are ignored, so
      a missing, null or mistyped `type`, or a non-object message, reads as "". */
  function MessageType(msg: Json): (t: string)
    ensures t != "" ==> Get(msg, "type") == Some(Str(t))
  {
    match GoStructFields(msg)
    case Err(_) => ""
    case Ok(fs) => match GoString(fs, "type") case Ok(s) => s case Err(_) => ""
  }

  datatype Observation = Nothing | UserSaid(text: string) | UnhandledType(eventType: string)

  /** What the reader does with one inbound message. */
  function HandleMessage(msg: Json): (o: Observation)
    ensures o.UserSaid? <==> MessageType(msg) == TranscriptionCompleted && Get(msg, "transcript").Some?
                                && Get(msg, "transcript").value.Str? && Get(msg, "transcript").value.s != ""
    ensures o.UserSaid? ==> Get(msg, "transcript") == Some(Str(o.text))
    ensures o.UnhandledType? <==> Classify(MessageType(msg)) == Unhandled
    ensures o.UnhandledType? ==> o.eventType == MessageType(msg)
  {
    var t := MessageType(msg);
    match Classify(t)
    case Ignored => Nothing
    case Unhandled => UnhandledType(t)
    case UserTranscription =>
      var transcript := match GoStructFields(msg)
        case Err(_) => ""
        case Ok(fs) => (match GoString(fs, "transcript") case Ok(s) => s case Err(_) => "");
      if transcript == "" then Nothing else UserSaid(transcript)
  }

  /** An `error` event and a message without a type are both unhandled. */
  lemma ErrorsAreUnhandled()
    ensures Classify("error") == Unhandled
    ensures HandleMessage(Obj([])) == UnhandledType("")
    ensures HandleMessage(Str("not an object")) == UnhandledType("")
  {
  }
}

=== FILE: agent_config.dfy ===
/** Configuration of a realtime AI agent and its defaults. */
module AgentConfig {

  const DefaultURL := "wss://api.openai.com/v1/realtime"
  const DefaultModel := "gpt-4o-realtime-preview-2024-10-01"
  const DefaultVoice := "alloy"

  /** The tool schema is passed through to the AI untouched: either nothing
      (Go's nil interface) or raw JSON text. */
  datatype Tools = NoTools | RawTools(text: string)

  datatype Config = Config(url: string, key: string, model: string, voice: string, prompt: string, tools: Tools)

  /** A configuration for `key` with the default endpoint, model and voice,
      no prompt and no tools. */
  function NewConfig(key: string): (c: Config)
    ensures c.url == DefaultURL
    ensures c.key == key
    ensures c.model == DefaultModel && c.voice == DefaultVoice
    ensures c.prompt == "" && c.tools == NoTools
  {
    Config(DefaultURL, key, DefaultModel, DefaultVoice, "", NoTools)
  }
}

=== FILE: base.dfy ===
/** Failure-compatible wrappers and the byte type shared by every module. */
module Base {

  /** A byte of audio or payload data. */
  type byte = b: int | 0 <= b < 256

  datatype Option<+T> = None | Some(value: T) {
    predicate IsFailure() { None? }

    function PropagateFailure<U>(): Option<U>
      requires None?
    {
      None
    }

    function Extract(): T
      requires Some?
    {
      value
    }
  }

  datatype Result<+T, +E> = Ok(value: T) | Err(error: E) {
    predicate IsFailure() { Err? }

    function PropagateFailure<U>(): Result<U, E>
      requires Err?
    {
      Err(error)
    }

    function Extract(): T
      requires Ok?
    {
      value
    }
  }
}

=== FILE: executor.dfy ===
/** The per-session executor that turns Twilio media-stream frames into
    AnyCable commands. The AnyCable node is an abstract port: every call the
    executor makes on it is appended to an effect log, and the port's answers
    (the subscribe error, the reply to each RPC, the disconnect error) come
    from the environment. */
module Executor {
  import opened Base
  import opened Json
  import opened Frames
  import opened AgentConfig
  import Agent
  import Text

  const ChannelName := "Twilio::MediaStreamChannel"
  /** The channel-state slot the backend writes its reply into. */
  const ResponseState := "anycable_response"
  const ConfigEvent := "openai.configuration"
  const FunctionCallResultEvent := "openai.function_call_result"
  /** WebSocket close code 1000. */
  const CloseNormalClosure := 1000

  // ---------------------------------------------------------------------------
  // Session, port and effects

  /** What the executor stores in the session's internal state. */
  datatype Internal = Internal(callSid: Option<string>, streamSid: Option<string>, agent: Option<Agent.Agent>)

  datatype Closure = Closure(reason: string, code: int)

  datatype Session = Session(
    connected: bool,
    internal: Internal,
    // channel identifier -> channel state
    channels: map<string, map<string, Json>>,
    closed: Option<Closure>)

  function NewSession(): (s: Session)
    ensures !s.connected && s.closed == None && s.channels == map[]
  {
    Session(false, Internal(None, None, None), map[], None)
  }

  /** The decoded data of an inbound command. */
  datatype Payload =
    | NoData
    | StartData(start: StartPayload)
    | MediaData(media: MediaPayload)
    | MarkData(mark: MarkPayload)
    | DTMFData(dtmf: DTMFPayload)

  datatype Message = Message(command: string, data: Payload)

  /** The node's answer to a Perform call: an error, no result, or a result
      carrying channel state. A missing slot stands for an empty string. */
  datatype PerformReply = PerformFailed(error: string) | NoResult | Replied(istate: map<string, Json>)

  datatype Port = Port(
    subscribeError: Option<string>,
    perform: map<string, string> -> PerformReply,
    disconnectError: Option<string>)

  /** The executor's environment: the configured account SID, the node, the
      outcome of dialling the AI endpoint, and the base64 decoder. */
  datatype Env = Env(
    accountSid: string,
    port: Port,
    dialSucceeds: bool,
    decodeBase64: string -> Option<seq<byte>>)

  datatype ReplyBody = MediaBody(media: MediaPayload) | MarkBody(mark: MarkPayload)

  /** A reply sent to the Twilio side of the session. */
  datatype Reply = Reply(replyType: string, body: ReplyBody, identifier: string)

  datatype Effect =
    | Authenticated(identifiers: map<string, string>)
    | Subscribe(identifier: string)
    | Perform(identifier: string, data: map<string, string>)
    | Send(reply: Reply)
    | SessionDisconnect(reason: string, code: int)
    | NodeDisconnect
    | Dial(request: Agent.DialRequest)
    | AgentClose(step: Agent.CloseEffect)
    | FunctionCallResult(callId: string, result: Option<Json>)

  datatype Error =
    | AlreadyConnected
    | NotConnected
    | MalformedStart
    | UnknownCommand(command: string)
    | NodeFailure(message: string)
    | MalformedResponse
    | UnexpectedResponse(event: string)
    | MalformedConfig
    | DialFailed
    | InvalidBase64

  function ErrorText(e: Error): string {
    match e
    case AlreadyConnected => "Already connected"
    case NotConnected => "Must be connected before receiving commands"
    case MalformedStart => "Malformed start message"
    case UnknownCommand(c) => "Unknown command: " + c
    case NodeFailure(m) => m
    case MalformedResponse => "failed to parse RPC response"
    case UnexpectedResponse(ev) => "unexpected response type from RPC: " + ev
    case MalformedConfig => "failed to parse OpenAI config from RPC"
    case DialFailed => "could not dial OpenAI WebSocket"
    case InvalidBase64 => "illegal base64 data"
  }

  /** `Panicked` is a Go runtime panic: the call does not return. */
  datatype Outcome = Done | Failed(error: Error) | Panicked

  datatype Step = Step(session: Session, effects: seq<Effect>, outcome: Outcome)

  // ---------------------------------------------------------------------------
  // RPC

  /** The identifier of every subscribe and perform: the JSON text of
      {"channel": ChannelName}. It is the same for every session. */
  function ChannelId(s: Session): string {
    "{\"channel\":\"" + ChannelName + "\"}"
  }

  /** Every session targets the same channel identifier. */
  lemma ChannelIdIsConstant(s: Session, t: Session)
    ensures ChannelId(s) == ChannelId(t)
    ensures |ChannelId(s)| == |ChannelName| + 14 && ChannelId(s)[12..|ChannelName| + 12] == ChannelName
  {
    var prefix := "{\"channel\":\"";
    assert |prefix| == 12;
    var id := ChannelId(s);
    assert id == prefix + ChannelName + "\"}";
    assert forall i :: 0 <= i < |ChannelName| ==> id[12..|ChannelName| + 12][i] == ChannelName[i];
  }

  datatype AppResponse = AppResponse(event: string, data: Option<Json>)

  /** The reply envelope {event, data}; `data` is kept raw, absent when missing. */
  function DecodeAppResponse(j: Json): (r: Result<AppResponse, DecodeError>)
    ensures r.Ok? && j.Obj? ==> r.value.data == Lookup(j.fields, "data")
  {
    var fs :- GoStructFields(j);
    var event :- GoString(fs, "event");
    Ok(AppResponse(event, Lookup(fs, "data")))
  }

  datatype RpcStep = RpcStep(session: Session, effects: seq<Effect>, result: Result<Option<AppResponse>, Error>)

  function ChannelState(s: Session, id: string): map<string, Json> {
    if id in s.channels then s.channels[id] else map[]
  }

  /** performRPC: perform `action` with `data` on the channel and collect the
      reply from the one-shot mailbox slot of the channel state, deleting it. */
  function PerformRPC(env: Env, s: Session, action: string, data: map<string, string>): (r: RpcStep)
    ensures r.effects == [Perform(ChannelId(s), data["action" := action])]
    ensures r.session.connected == s.connected && r.session.internal == s.internal && r.session.closed == s.closed
    ensures env.port.perform(data["action" := action]).PerformFailed? <==> r.result.Err? && r.result.error.NodeFailure?
    ensures r.result == Ok(None) <==>
              env.port.perform(data["action" := action]).NoResult?
              || (env.port.perform(data["action" := action]).Replied?
                  && ResponseState !in env.port.perform(data["action" := action]).istate)
    ensures env.port.perform(data["action" := action]).Replied? && ResponseState in env.port.perform(data["action" := action]).istate ==>
              ChannelId(s) in r.session.channels && ResponseState !in r.session.channels[ChannelId(s)]
    ensures env.port.perform(data["action" := action]).Replied? && ResponseState in env.port.perform(data["action" := action]).istate ==>
              r.result == (var reply := DecodeAppResponse(env.port.perform(data["action" := action]).istate[ResponseState]);
                           if reply.Ok? then Ok(Some(reply.value)) else Err(MalformedResponse))
    ensures env.port.perform(data["action" := action]).NoResult? ==> r.session == s
  {
    var payload := data["action" := action];
    var id := ChannelId(s);
    var effects := [Perform(id, payload)];
    match env.port.perform(payload)
    case PerformFailed(e) => RpcStep(s, effects, Err(NodeFailure(e)))
    case NoResult => RpcStep(s, effects, Ok(None))
    case Replied(istate) =>
      var merged := s.(channels := s.channels[id := ChannelState(s, id) + istate]);
      if ResponseState !in istate then RpcStep(merged, effects, Ok(None))
      else
        var cleared := merged.(channels := merged.channels[id := merged.channels[id] - {ResponseState}]);
        match DecodeAppResponse(istate[ResponseState])
        case Err(_) => RpcStep(cleared, effects, Err(MalformedResponse))
        case Ok(response) => RpcStep(cleared, effects, Ok(Some(response)))
  }

  // ---------------------------------------------------------------------------
  // Agent initialisation

  datatype OpenAIConfigData = OpenAIConfigData(apiKey: string, model: string, voice: string, prompt: string, tools: string)

  /** Decoding the reply data; raw data that is absent is an error (Go's
      "unexpected end of JSON input"), null is the zero configuration. */
  function DecodeConfigData(data: Option<Json>): (r: Result<OpenAIConfigData, DecodeError>)
    ensures data.None? ==> r.Err?
    ensures data == Some(Null) ==> r == Ok(OpenAIConfigData("", "", "", "", ""))
    ensures data.Some? && !data.value.Obj? && !data.value.Null? ==> r.Err?
    ensures r.Ok? && r.value.apiKey != "" ==> Lookup(data.value.fields, "api_key") == Some(Str(r.value.apiKey))
    ensures r.Ok? && r.value.tools != "" ==> Lookup(data.value.fields, "tools") == Some(Str(r.value.tools))
  {
    if data.None? then Err(NotAnObject)
    else
      var fs :- GoStructFields(data.value);
      var apiKey :- GoString(fs, "api_key");
      var model :- GoString(fs, "model");
      var voice :- GoString(fs, "voice");
      var prompt :- GoString(fs, "prompt");
      var tools :- GoString(fs, "tools");
      Ok(OpenAIConfigData(apiKey, model, voice, prompt, tools))
  }

  /** The agent configuration: the defaults for the key, each overridden only
      by a non-empty value from the reply. */
  function ConfigFrom(d: OpenAIConfigData): (c: Config)
    ensures c.url == DefaultURL && c.key == d.apiKey
    ensures c.model == (if d.model == "" then DefaultModel else d.model)
    ensures c.voice == (if d.voice == "" then DefaultVoice else d.voice)
    ensures c.prompt == d.prompt
    ensures c.tools == (if d.tools == "" then NoTools else RawTools(d.tools))
  {
    var c0 := NewConfig(d.apiKey);
    var c1 := if d.model != "" then c0.(model := d.model) else c0;
    var c2 := if d.voice != "" then c1.(voice := d.voice) else c1;
    var c3 := if d.prompt != "" then c2.(prompt := d.prompt) else c2;
    if d.tools != "" then c3.(tools := RawTools(d.tools)) else c3
  }

  /** The backend's answer to the configure_openai action. */
  function ConfigureReply(env: Env): PerformReply {
    env.port.perform(map["action" := "configure_openai"])
  }

  /** initAgent: ask the backend for the AI configuration and, when it sends
      one, build and start an agent; the agent is stored only once started. */
  function InitAgent(env: Env, s: Session): (r: Step)
    ensures |r.effects| >= 1 && r.effects[0] == Perform(ChannelId(s), map["action" := "configure_openai"])
    ensures r.session.connected == s.connected && r.session.closed == s.closed
    ensures r.session.internal.callSid == s.internal.callSid && r.session.internal.streamSid == s.internal.streamSid
    ensures r.outcome != Panicked
    ensures r.session.internal.agent != s.internal.agent ==>
              && env.dialSucceeds && r.outcome == Done
              && r.session.internal.agent.Some? && r.session.internal.agent.value.conn
              && r.effects == [r.effects[0], Dial(Agent.DialRequestFor(r.session.internal.agent.value.conf))]
  {
    var rpc := PerformRPC(env, s, "configure_openai", map[]);
    assert map[]["action" := "configure_openai"] == map["action" := "configure_openai"];
    ConfigureAgent(env, rpc)
  }

  /** How initAgent fails: a failed perform, an undecodable reply, an
      unexpected event or undecodable configuration data each give their own
      error, and the RPC's effect is the only one. */
  lemma InitAgentFailures(env: Env, s: Session)
    ensures var r := InitAgent(env, s);
      && (ConfigureReply(env).PerformFailed? ==>
            r.outcome == Failed(NodeFailure(ConfigureReply(env).error)) && r.session == s && |r.effects| == 1)
      && (ConfigureReply(env).Replied? && ResponseState in ConfigureReply(env).istate ==>
            var reply := DecodeAppResponse(ConfigureReply(env).istate[ResponseState]);
            && (reply.Err? ==> r.outcome == Failed(MalformedResponse) && |r.effects| == 1)
            && (reply.Ok? && reply.value.event != ConfigEvent ==>
                  r.outcome == Failed(UnexpectedResponse(reply.value.event)) && |r.effects| == 1)
            && (reply.Ok? && reply.value.event == ConfigEvent && DecodeConfigData(reply.value.data).Err? ==>
                  r.outcome == Failed(MalformedConfig) && |r.effects| == 1))
  {
    var rpc := PerformRPC(env, s, "configure_openai", map[]);
    assert map[]["action" := "configure_openai"] == map["action" := "configure_openai"];
    assert InitAgent(env, s) == ConfigureAgent(env, rpc);
    match ConfigureReply(env)
    case PerformFailed(e) =>
      assert rpc == RpcStep(s, rpc.effects, Err(NodeFailure(e)));
    case NoResult =>
    case Replied(istate) =>
      if ResponseState in istate {
        var reply := DecodeAppResponse(istate[ResponseState]);
        if reply.Err? {
          assert rpc.result == Err(MalformedResponse);
        } else {
          assert rpc.result == Ok(Some(reply.value));
        }
      }
  }

  /** A failed initAgent leaves the agent, the call and the stream alone. */
  lemma InitAgentFailureKeepsInternal(env: Env, s: Session)
    ensures InitAgent(env, s).outcome.Failed? ==> InitAgent(env, s).session.internal == s.internal
  {
    var rpc := PerformRPC(env, s, "configure_openai", map[]);
    assert map[]["action" := "configure_openai"] == map["action" := "configure_openai"];
    assert InitAgent(env, s) == ConfigureAgent(env, rpc);
  }

  /** What initAgent does with the result of its RPC: an error, no reply, an
      unexpected event or undecodable data leave the agent alone; a decoded
      configuration starts a new agent. */
  function ConfigureAgent(env: Env, rpc: RpcStep): (r: Step)
    ensures rpc.effects <= r.effects && |r.effects| <= |rpc.effects| + 1
    ensures r.session.connected == rpc.session.connected && r.session.closed == rpc.session.closed
    ensures r.session.internal.callSid == rpc.session.internal.callSid
    ensures r.session.internal.streamSid == rpc.session.internal.streamSid
    ensures r.outcome != Panicked
    ensures rpc.result == Ok(None) ==> r == Step(rpc.session, rpc.effects, Done)
    ensures rpc.result.Err? ==> r == Step(rpc.session, rpc.effects, Failed(rpc.result.error))
    ensures rpc.result.Ok? && rpc.result.value.Some? && rpc.result.value.value.event != ConfigEvent ==>
              r == Step(rpc.session, rpc.effects, Failed(UnexpectedResponse(rpc.result.value.value.event)))
    ensures rpc.result.Ok? && rpc.result.value.Some? && rpc.result.value.value.event == ConfigEvent ==>
              r == (match DecodeConfigData(rpc.result.value.value.data)
                    case Err(_) => Step(rpc.session, rpc.effects, Failed(MalformedConfig))
                    case Ok(d) => StartAgent(env, rpc.session, rpc.effects, ConfigFrom(d)))
    ensures r.session.internal.agent != rpc.session.internal.agent ==>
              && env.dialSucceeds && r.outcome == Done
              && r.session.internal.agent.Some? && r.session.internal.agent.value.conn
              && r.effects == rpc.effects + [Dial(Agent.DialRequestFor(r.session.internal.agent.value.conf))]
  {
    match rpc.result
    case Err(e) => Step(rpc.session, rpc.effects, Failed(e))
    case Ok(None) => Step(rpc.session, rpc.effects, Done)
    case Ok(Some(response)) =>
      if response.event != ConfigEvent then Step(rpc.session, rpc.effects, Failed(UnexpectedResponse(response.event)))
      else
        match DecodeConfigData(response.data)
        case Err(_) => Step(rpc.session, rpc.effects, Failed(MalformedConfig))
        case Ok(d) => StartAgent(env, rpc.session, rpc.effects, ConfigFrom(d))
  }

  /** Without a reply there is no agent and no error. */
  lemma InitAgentWithoutReply(env: Env, s: Session)
    requires env.port.perform(map["action" := "configure_openai"]).NoResult?
    ensures InitAgent(env, s) == Step(s, [Perform(ChannelId(s), map["action" := "configure_openai"])], Done)
  {
    assert map[]["action" := "configure_openai"] == map["action" := "configure_openai"];
  }

  /** A new agent for `conf` dials the realtime API; it is stored in the
      session only when the dial succeeds. */
  function StartAgent(env: Env, s: Session, effects: seq<Effect>, conf: AgentConfig.Config): (r: Step)
    ensures r.effects == effects + [Dial(Agent.DialRequestFor(conf))]
    ensures r.outcome == Done <==> env.dialSucceeds
    ensures !env.dialSucceeds ==> r.session == s && r.outcome == Failed(DialFailed)
    ensures env.dialSucceeds ==>
              && r.session.internal.agent.Some? && r.session.internal.agent.value.conn
              && r.session.internal.agent.value.conf == conf
              && r.session == s.(internal := s.internal.(agent := r.session.internal.agent))
  {
    var k := Agent.KickOff(Agent.NewAgent(conf), env.dialSucceeds);
    var effects' := effects + [Dial(k.dial)];
    if !k.connected then Step(s, effects', Failed(DialFailed))
    else Step(s.(internal := s.internal.(agent := Some(k.agent))), effects', Done)
  }

  // ---------------------------------------------------------------------------
  // Frames

  /** The account SID as the auth-failure log line prints it: the source
      slices the first five characters, which is out of range (a panic) for
      shorter SIDs. */
  function RedactSidAsWritten(sid: string): (r: Option<string>)
    ensures r.Some? <==> |sid| >= 5
  {
    if |sid| >= 5 then Some(sid[..5] + "***") else None
  }

  /** The evidently intended redaction: at most the first five characters. */
  function RedactSid(sid: string): (r: Option<string>)
    ensures r.Some?
    ensures exists k :: 0 <= k <= 5 && k <= |sid| && r.value == sid[..k] + "***"
  {
    var k := if |sid| < 5 then |sid| else 5;
    Some(sid[..k] + "***")
  }

  predicate AccountMismatch(env: Env, p: StartPayload) {
    env.accountSid != "" && env.accountSid != p.accountSid
  }

  /** The start frame: reject a foreign account by closing the connection
      (not an error), otherwise store the identifiers, authenticate,
      subscribe, then initialise the agent. */
  function HandleStart(env: Env, s: Session, data: Payload, redact: string -> Option<string>): (r: Step)
    requires s.connected
    ensures !data.StartData? ==> r == Step(s, [], Failed(MalformedStart))
    ensures data.StartData? && AccountMismatch(env, data.start) ==>
              if redact(data.start.accountSid).None? then r == Step(s, [], Panicked)
              else r == Step(s.(closed := Some(Closure("Auth Failed", CloseNormalClosure))),
                             [SessionDisconnect("Auth Failed", CloseNormalClosure)], Done)
    ensures data.StartData? && !AccountMismatch(env, data.start) ==>
              && |r.effects| >= 2
              && r.effects[0] == Authenticated(map["call_sid" := data.start.callSid, "stream_sid" := data.start.streamSid])
              && r.effects[1] == Subscribe(ChannelId(s))
              && r.session.internal.callSid == Some(data.start.callSid)
              && r.session.internal.streamSid == Some(data.start.streamSid)
              && (env.port.subscribeError.Some? ==>
                    r.effects == r.effects[..2] && r.outcome == Failed(NodeFailure(env.port.subscribeError.value)))
              && (env.port.subscribeError.None? ==>
                    |r.effects| >= 3 && r.effects[2] == Perform(ChannelId(s), map["action" := "configure_openai"]))
    ensures data.StartData? && !AccountMismatch(env, data.start) && env.port.subscribeError.None? ==>
              var stored := s.(internal := s.internal.(callSid := Some(data.start.callSid), streamSid := Some(data.start.streamSid)));
              var init := InitAgent(env, stored);
              r.session == init.session && r.outcome == init.outcome && r.effects == r.effects[..2] + init.effects
    ensures r.session.connected
  {
    match data
    case StartData(p) =>
      if AccountMismatch(env, p) then
        if redact(p.accountSid).None? then Step(s, [], Panicked)
        else Step(s.(closed := Some(Closure("Auth Failed", CloseNormalClosure))),
                  [SessionDisconnect("Auth Failed", CloseNormalClosure)], Done)
      else
        var stored := s.(internal := s.internal.(callSid := Some(p.callSid), streamSid := Some(p.streamSid)));
        var identifiers := map["call_sid" := p.callSid, "stream_sid" := p.streamSid];
        var effects := [Authenticated(identifiers), Subscribe(ChannelId(stored))];
        (match env.port.subscribeError
         case Some(e) => Step(stored, effects, Failed(NodeFailure(e)))
         case None =>
           var init := InitAgent(env, stored);
           Step(init.session, effects + init.effects, init.outcome))
    case _ => Step(s, [], Failed(MalformedStart))
  }

  /** The media frame: ignore the outbound track and sessions without an
      agent; otherwise decode the payload and feed the bytes to the agent. */
  function HandleMedia(env: Env, s: Session, data: Payload): (r: Step)
    ensures !data.MediaData? ==> r == Step(s, [], Panicked)
    ensures data.MediaData? && (data.media.track == "outbound" || s.internal.agent.None?) ==> r == Step(s, [], Done)
    ensures data.MediaData? && data.media.track != "outbound" && s.internal.agent.Some? ==>
              match env.decodeBase64(data.media.payload)
              case None => r == Step(s, [], Failed(InvalidBase64))
              case Some(audio) =>
                r == Step(s.(internal := s.internal.(agent := Some(Agent.EnqueueAudio(s.internal.agent.value, audio)))), [], Done)
  {
    match data
    case MediaData(m) =>
      if m.track == "outbound" then Step(s, [], Done)
      else
        (match s.internal.agent
         case None => Step(s, [], Done)
         case Some(a) =>
           (match env.decodeBase64(m.payload)
            case None => Step(s, [], Failed(InvalidBase64))
            case Some(audio) => Step(s.(internal := s.internal.(agent := Some(Agent.EnqueueAudio(a, audio)))), [], Done)))
    case _ => Step(s, [], Panicked)
  }

  /** The dtmf frame: one handle_dtmf RPC carrying the digit; the reply is not used. */
  function HandleDtmf(env: Env, s: Session, data: Payload): (r: Step)
    ensures !data.DTMFData? ==> r == Step(s, [], Panicked)
    ensures data.DTMFData? ==>
              && r.effects == [Perform(ChannelId(s), map["digit" := data.dtmf.digit, "action" := "handle_dtmf"])]
              && (r.outcome.Failed? <==> PerformRPC(env, s, "handle_dtmf", map["digit" := data.dtmf.digit]).result.Err?)
              && r.outcome != Panicked
    ensures data.DTMFData? ==>
              var rpc := PerformRPC(env, s, "handle_dtmf", map["digit" := data.dtmf.digit]);
              r.session == rpc.session && r.outcome == (if rpc.result.Err? then Failed(rpc.result.error) else Done)
  {
    match data
    case DTMFData(d) =>
      var rpc := PerformRPC(env, s, "handle_dtmf", map["digit" := d.digit]);
      Step(rpc.session, rpc.effects, if rpc.result.Err? then Failed(rpc.result.error) else Done)
    case _ => Step(s, [], Panicked)
  }

  const HandledCommands: set<string> := {ConnectedEvent, StopEvent, StartEvent, MediaEvent, MarkEvent, DTMFEvent}

  /** HandleCommand, with the account-SID redaction of the auth-failure log
      as a parameter (see HandleCommand and HandleCommandCorrected). */
  function HandleCommandWith(env: Env, s: Session, msg: Message, redact: string -> Option<string>): (r: Step)
    ensures msg.command == ConnectedEvent && !s.connected ==> r == Step(s.(connected := true), [], Done)
    ensures msg.command == ConnectedEvent && s.connected ==> r == Step(s, [], Failed(AlreadyConnected))
    ensures msg.command == StopEvent ==>
              r == Step(s.(closed := Some(Closure("stream stopped", CloseNormalClosure))),
                        [SessionDisconnect("stream stopped", CloseNormalClosure)], Done)
    ensures msg.command != ConnectedEvent && msg.command != StopEvent && !s.connected ==>
              r == Step(s, [], Failed(NotConnected))
    ensures s.connected && msg.command == StartEvent ==> r == HandleStart(env, s, msg.data, redact)
    ensures s.connected && msg.command == MediaEvent ==> r == HandleMedia(env, s, msg.data)
    ensures s.connected && msg.command == DTMFEvent ==> r == HandleDtmf(env, s, msg.data)
    ensures s.connected && msg.command == MarkEvent ==> r == Step(s, [], Done)
    ensures s.connected && msg.command !in HandledCommands ==> r == Step(s, [], Failed(UnknownCommand(msg.command)))
    ensures r.session.connected == (s.connected || msg.command == ConnectedEvent)
    ensures r.outcome.Panicked? ==> r.session == s && r.effects == []
  {
    if msg.command == ConnectedEvent then
      if s.connected then Step(s, [], Failed(AlreadyConnected)) else Step(s.(connected := true), [], Done)
    else if msg.command == StopEvent then
      Step(s.(closed := Some(Closure("stream stopped", CloseNormalClosure))),
           [SessionDisconnect("stream stopped", CloseNormalClosure)], Done)
    else if !s.connected then Step(s, [], Failed(NotConnected))
    else if msg.command == StartEvent then HandleStart(env, s, msg.data, redact)
    else if msg.command == MediaEvent then HandleMedia(env, s, msg.data)
    else if msg.command == MarkEvent then Step(s, [], Done)
    else if msg.command == DTMFEvent then HandleDtmf(env, s, msg.data)
    else Step(s, [], Failed(UnknownCommand(msg.command)))
  }

  /** HandleCommand as written: a foreign account SID shorter than five
      characters panics in the log call before the connection is closed. */
  function HandleCommand(env: Env, s: Session, msg: Message): (r: Step)
    ensures r.outcome.Panicked? <==>
              s.connected && msg.command !in {ConnectedEvent, StopEvent}
              && ((msg.command == StartEvent && msg.data.StartData?
                   && AccountMismatch(env, msg.data.start) && |msg.data.start.accountSid| < 5)
                  || (msg.command == MediaEvent && !msg.data.MediaData?)
                  || (msg.command == DTMFEvent && !msg.data.DTMFData?))
  {
    HandleCommandWith(env, s, msg, RedactSidAsWritten)
  }

  /** HandleCommand with the redaction clamped to the SID's length. */
  function HandleCommandCorrected(env: Env, s: Session, msg: Message): (r: Step)
    ensures r.outcome.Panicked? <==>
              s.connected && msg.command !in {ConnectedEvent, StopEvent}
              && ((msg.command == MediaEvent && !msg.data.MediaData?)
                  || (msg.command == DTMFEvent && !msg.data.DTMFData?))
    ensures !HandleCommand(env, s, msg).outcome.Panicked? ==> r == HandleCommand(env, s, msg)
  {
    HandleCommandWith(env, s, msg, RedactSid)
  }

  /** The start frame of a foreign account with a short SID: the source
      panics, the corrected handler closes the connection silently. */
  lemma ShortForeignSidPanics(s: Session, port: Port, decode: string -> Option<seq<byte>>)
    requires s.connected
    ensures var env := Env("AC2", port, true, decode);
            var msg := Message(StartEvent, StartData(StartPayload("AC1", "ST1", "CA1")));
      && HandleCommand(env, s, msg).outcome == Panicked
      && HandleCommandCorrected(env, s, msg)
         == Step(s.(closed := Some(Closure("Auth Failed", CloseNormalClosure))),
                 [SessionDisconnect("Auth Failed", CloseNormalClosure)], Done)
  {
  }

  // ---------------------------------------------------------------------------
  // Disconnect and the agent callbacks

  function CloseEffects(steps: seq<Agent.CloseEffect>): (r: seq<Effect>)
    ensures |r| == |steps| && forall i :: 0 <= i < |steps| ==> r[i] == AgentClose(steps[i])
  {
    if steps == [] then [] else [AgentClose(steps[0])] + CloseEffects(steps[1..])
  }

  /** Disconnect: close the stored agent, if any, then disconnect at the node. */
  function Disconnect(env: Env, s: Session): (r: Step)
    ensures |r.effects| >= 1 && r.effects[|r.effects| - 1] == NodeDisconnect
    ensures s.internal.agent.None? ==> r.effects == [NodeDisconnect] && r.session == s
    ensures s.internal.agent.Some? ==>
              r.effects == CloseEffects(Agent.Close(s.internal.agent.value).effects) + [NodeDisconnect]
    ensures s.internal.agent.None? ==> r.session == s
    ensures s.internal.agent.Some? ==> r.session.internal.agent == Some(Agent.Close(s.internal.agent.value).agent)
    ensures r.outcome == (if env.port.disconnectError.None? then Done else Failed(NodeFailure(env.port.disconnectError.value)))
  {
    var outcome := if env.port.disconnectError.None? then Done else Failed(NodeFailure(env.port.disconnectError.value));
    match s.internal.agent
    case None => Step(s, [NodeDisconnect], outcome)
    case Some(a) =>
      var c := Agent.Close(a);
      Step(s.(internal := s.internal.(agent := Some(c.agent))), CloseEffects(c.effects) + [NodeDisconnect], outcome)
  }

  /** What an agent callback leaves behind. */
  datatype Hook = Hook(session: Session, effects: seq<Effect>)

  /** The transcript callback: one handle_transcript RPC; its errors are only logged. */
  function OnTranscript(env: Env, s: Session, role: string, text: string, id: string): (h: Hook)
    ensures h.effects == [Perform(ChannelId(s), map["role" := role, "text" := text, "id" := id, "action" := "handle_transcript"])]
    ensures h.session.internal == s.internal && h.session.connected == s.connected
  {
    var rpc := PerformRPC(env, s, "handle_transcript", map["role" := role, "text" := text, "id" := id]);
    Hook(rpc.session, rpc.effects)
  }

  function AudioMarkName(id: string): string {
    "ai-delta-" + id
  }

  /** The audio callback: a media reply with the encoded audio followed by a
      mark named after the item, both for the stored stream; nothing before
      the stream id is known. */
  function OnAudio(s: Session, encodedAudio: string, id: string): (h: Hook)
    ensures h.session == s
    ensures s.internal.streamSid.None? <==> h.effects == []
    ensures s.internal.streamSid.Some? ==>
              && |h.effects| == 2 && h.effects[0].Send? && h.effects[1].Send?
              && h.effects[0].reply == Reply(MediaEvent, MediaBody(MediaPayload(encodedAudio, "")), s.internal.streamSid.value)
              && h.effects[1].reply.replyType == MarkEvent
              && h.effects[1].reply.identifier == h.effects[0].reply.identifier
              && h.effects[1].reply.body.MarkBody?
              && h.effects[1].reply.body.mark.name == AudioMarkName(id)
  {
    match s.internal.streamSid
    case None => Hook(s, [])
    case Some(sid) =>
      Hook(s, [Send(Reply(MediaEvent, MediaBody(MediaPayload(encodedAudio, "")), sid)),
               Send(Reply(MarkEvent, MarkBody(MarkPayload(AudioMarkName(id))), sid))])
  }

  /** The mark name carries the item id unchanged. */
  lemma AudioMarkNameRoundTrip(id: string)
    ensures Text.StartsWith(AudioMarkName(id), "ai-delta-")
    ensures AudioMarkName(id)[|"ai-delta-"|..] == id
  {
  }

  /** The function-call callback: one handle_function_call RPC carrying the
      name and the arguments (not the call id); a function_call_result reply
      is handed back to the agent under the call id. */
  function OnFunctionCall(env: Env, s: Session, name: string, arguments: string, callId: string): (h: Hook)
    ensures |h.effects| >= 1
    ensures h.effects[0] == Perform(ChannelId(s), map["name" := name, "arguments" := arguments, "action" := "handle_function_call"])
    ensures var rpc := PerformRPC(env, s, "handle_function_call", map["name" := name, "arguments" := arguments]);
      if rpc.result.Ok? && rpc.result.value.Some? && rpc.result.value.value.event == FunctionCallResultEvent
      then h.effects == rpc.effects + [FunctionCallResult(callId, rpc.result.value.value.data)]
      else h.effects == rpc.effects
  {
    var rpc := PerformRPC(env, s, "handle_function_call", map["name" := name, "arguments" := arguments]);
    if rpc.result.Ok? && rpc.result.value.Some? && rpc.result.value.value.event == FunctionCallResultEvent then
      Hook(rpc.session, rpc.effects + [FunctionCallResult(callId, rpc.result.value.value.data)])
    else
      Hook(rpc.session, rpc.effects)
  }

  // ---------------------------------------------------------------------------
  // Frame sequences

  datatype Trace = Trace(session: Session, effects: seq<Effect>, outcomes: seq<Outcome>)

  /** The host feeding frames one at a time to the handler with redaction
      `redact` (RedactSidAsWritten is the source as written); a panic ends the
      run. The i-th outcome belongs to the i-th frame. */
  function Run(env: Env, s: Session, msgs: seq<Message>, redact: string -> Option<string>): (t: Trace)
    ensures |t.outcomes| <= |msgs|
    ensures |msgs| > 0 ==> |t.outcomes| > 0 && t.outcomes[0] == HandleCommandWith(env, s, msgs[0], redact).outcome
    ensures forall i :: 0 <= i < |t.outcomes| - 1 ==> !t.outcomes[i].Panicked?
    ensures |t.outcomes| < |msgs| ==> t.outcomes[|t.outcomes| - 1] == Panicked
    decreases msgs
  {
    if msgs == [] then Trace(s, [], [])
    else
      var step := HandleCommandWith(env, s, msgs[0], redact);
      if step.outcome.Panicked? then Trace(step.session, step.effects, [Panicked])
      else
        var rest := Run(env, step.session, msgs[1..], redact);
        Trace(rest.session, step.effects + rest.effects, [step.outcome] + rest.outcomes)
  }

  /** Before a connected frame, every frame but stop fails with "Must be
      connected" and the session and the effect log stay untouched. */
  lemma {:induction false} NothingBeforeConnected(env: Env, s: Session, msgs: seq<Message>, redact: string -> Option<string>)
    requires !s.connected
    requires forall i :: 0 <= i < |msgs| ==> msgs[i].command != ConnectedEvent && msgs[i].command != StopEvent
    ensures Run(env, s, msgs, redact) == Trace(s, [], seq(|msgs|, i => Failed(NotConnected)))
    decreases msgs
  {
    if msgs != [] {
      NothingBeforeConnected(env, s, msgs[1..], redact);
      assert [Failed(NotConnected)] + seq(|msgs| - 1, i => Failed(NotConnected)) == seq(|msgs|, i => Failed(NotConnected));
    }
  }

  /** Once connected, a session stays connected, and every further connected
      frame is rejected with "Already connected": it connects at most once. */
  lemma {:induction false} ConnectsAtMostOnce(env: Env, s: Session, msgs: seq<Message>, redact: string -> Option<string>)
    requires s.connected
    ensures Run(env, s, msgs, redact).session.connected
    ensures forall i :: 0 <= i < |Run(env, s, msgs, redact).outcomes| && msgs[i].command == ConnectedEvent ==>
              Run(env, s, msgs, redact).outcomes[i] == Failed(AlreadyConnected)
    decreases msgs
  {
    if msgs != [] {
      var step := HandleCommandWith(env, s, msgs[0], redact);
      if !step.outcome.Panicked? {
        ConnectsAtMostOnce(env, step.session, msgs[1..], redact);
        var t := Run(env, s, msgs, redact);
        forall i | 1 <= i < |t.outcomes| && msgs[i].command == ConnectedEvent
          ensures t.outcomes[i] == Failed(AlreadyConnected)
        {
          assert t.outcomes[i] == Run(env, step.session, msgs[1..], redact).outcomes[i - 1];
          assert msgs[1..][i - 1] == msgs[i];
        }
      }
    }
  }

  /** Media frames of the outbound track never reach the agent: a run of them
      on a connected session changes nothing and makes no call. */
  lemma {:induction false} OutboundMediaIgnored(env: Env, s: Session, msgs: seq<Message>, redact: string -> Option<string>)
    requires s.connected
    requires forall i :: 0 <= i < |msgs| ==>
               msgs[i].command == MediaEvent && msgs[i].data.MediaData? && msgs[i].data.media.track == "outbound"
    ensures Run(env, s, msgs, redact) == Trace(s, [], seq(|msgs|, i => Done))
    decreases msgs
  {
    if msgs != [] {
      OutboundMediaIgnored(env, s, msgs[1..], redact);
      assert [Done] + seq(|msgs| - 1, i => Done) == seq(|msgs|, i => Done);
    }
  }
}

=== FILE: frames.dfy ===
/** The Twilio Media Streams vocabulary: event names, payloads and message
    envelopes, with the JSON member names and omission rules of their Go
    struct tags, and Go's decoding of each message back from JSON. */
module Frames {
  import opened Base
  import opened Json

  const ConnectedEvent := "connected"
  const StartEvent := "start"
  const MediaEvent := "media"
  const MarkEvent := "mark"
  const StopEvent := "stop"
  const ClearEvent := "clear"
  const DTMFEvent := "dtmf"

  const EventNames: seq<string> :=
    [ConnectedEvent, StartEvent, MediaEvent, MarkEvent, StopEvent, ClearEvent, DTMFEvent]

  /** The seven discriminators name seven different events. */
  lemma EventNamesDistinct()
    ensures |EventNames| == 7
    ensures forall i, j :: 0 <= i < j < |EventNames| ==> EventNames[i] != EventNames[j]
  {
  }

  type int64 = x: int | Int64Min <= x <= Int64Max

  // ---------------------------------------------------------------------------
  // Payloads

  datatype StartPayload = StartPayload(accountSid: string, streamSid: string, callSid: string)
  datatype MediaPayload = MediaPayload(payload: string, track: string)
  datatype StopPayload = StopPayload(accountSid: string, streamSid: string)
  datatype MarkPayload = MarkPayload(name: string)
  datatype DTMFPayload = DTMFPayload(track: string, digit: string)

  function StrField(key: string, value: string): Field {
    Field(key, Str(value))
  }

  /** StartPayload.ToJSON: exactly the three identifiers. */
  function StartPayloadToJson(p: StartPayload): (j: Json)
    ensures j.Obj? && Keys(j.fields) == ["accountSid", "streamSid", "callSid"]
    ensures Get(j, "callSid") == Some(Str(p.callSid))
  {
    Obj([StrField("accountSid", p.accountSid), StrField("streamSid", p.streamSid), StrField("callSid", p.callSid)])
  }

  function StartPayloadFromFields(fs: seq<Field>): Result<StartPayload, DecodeError> {
    var accountSid :- GoString(fs, "accountSid");
    var streamSid :- GoString(fs, "streamSid");
    var callSid :- GoString(fs, "callSid");
    Ok(StartPayload(accountSid, streamSid, callSid))
  }

  function StartPayloadFromJson(j: Json): Result<StartPayload, DecodeError> {
    var fs :- GoStructFields(j);
    StartPayloadFromFields(fs)
  }

  /** Decoding what StartPayload.ToJSON produced gives the payload back. */
  lemma StartPayloadRoundTrip(p: StartPayload)
    ensures StartPayloadFromJson(StartPayloadToJson(p)) == Ok(p)
  {
    var fs := StartPayloadToJson(p).fields;
    assert fs == [StrField("accountSid", p.accountSid), StrField("streamSid", p.streamSid)] + [StrField("callSid", p.callSid)];
    assert [StrField("accountSid", p.accountSid), StrField("streamSid", p.streamSid)] == [StrField("accountSid", p.accountSid)] + [StrField("streamSid", p.streamSid)];
  }

  function MediaPayloadToJson(p: MediaPayload): (j: Json)
    ensures j.Obj? && Keys(j.fields) == ["payload", "track"]
  {
    Obj([StrField("payload", p.payload), StrField("track", p.track)])
  }

  function MediaPayloadFromFields(fs: seq<Field>): Result<MediaPayload, DecodeError> {
    var payload :- GoString(fs, "payload");
    var track :- GoString(fs, "track");
    Ok(MediaPayload(payload, track))
  }

  function StopPayloadToJson(p: StopPayload): (j: Json)
    ensures j.Obj? && Keys(j.fields) == ["accountSid", "streamSid"]
  {
    Obj([StrField("accountSid", p.accountSid), StrField("streamSid", p.streamSid)])
  }

  function StopPayloadFromFields(fs: seq<Field>): Result<StopPayload, DecodeError> {
    var accountSid :- GoString(fs, "accountSid");
    var streamSid :- GoString(fs, "streamSid");
    Ok(StopPayload(accountSid, streamSid))
  }

  function MarkPayloadToJson(p: MarkPayload): (j: Json)
    ensures j.Obj? && Keys(j.fields) == ["name"]
  {
    Obj([StrField("name", p.name)])
  }

  function MarkPayloadFromFields(fs: seq<Field>): Result<MarkPayload, DecodeError> {
    var name :- GoString(fs, "name");
    Ok(MarkPayload(name))
  }

  function DTMFPayloadToJson(p: DTMFPayload): (j: Json)
    ensures j.Obj? && Keys(j.fields) == ["track", "digit"]
  {
    Obj([StrField("track", p.track), StrField("digit", p.digit)])
  }

  function DTMFPayloadFromFields(fs: seq<Field>): Result<DTMFPayload, DecodeError> {
    var track :- GoString(fs, "track");
    var digit :- GoString(fs, "digit");
    Ok(DTMFPayload(track, digit))
  }

  // ---------------------------------------------------------------------------
  // Message envelopes: {event, streamSid, sequenceNumber, <payload key>: {...}}

  /** The envelope members. With `omitEmpty` (the `omitempty` tag of media,
      mark and dtmf messages) an empty stream id and a zero sequence number
      are left out; start and stop messages always carry both. */
  function EnvelopeFields(event: string, streamSid: string, sequence: int64, omitEmpty: bool,
                          payloadKey: string, payload: Json): seq<Field>
  {
    var sid := if omitEmpty && streamSid == "" then [] else [StrField("streamSid", streamSid)];
    var num := if omitEmpty && sequence == 0 then [] else [Field("sequenceNumber", Num(sequence))];
    [StrField("event", event)] + sid + num + [Field(payloadKey, payload)]
  }

  datatype Envelope = Envelope(event: string, streamSid: string, sequence: int64, payload: seq<Field>)

  /** A nested struct member: absent or null decodes to the zero struct. */
  function NestedFields(fs: seq<Field>, key: string): Result<seq<Field>, DecodeError> {
    match Lookup(fs, key)
    case None => Ok([])
    case Some(j) => GoStructFields(j)
  }

  function DecodeEnvelope(j: Json, payloadKey: string): Result<Envelope, DecodeError> {
    var fs :- GoStructFields(j);
    var event :- GoString(fs, "event");
    var streamSid :- GoString(fs, "streamSid");
    var sequence :- GoInt64(fs, "sequenceNumber");
    var payload :- NestedFields(fs, payloadKey);
    Ok(Envelope(event, streamSid, sequence, payload))
  }

  /** Where each envelope member is found again by a Go decoder. */
  lemma EnvelopeLookups(event: string, streamSid: string, sequence: int64, omitEmpty: bool,
                        payloadKey: string, payload: Json)
    requires payloadKey != "event" && payloadKey != "streamSid" && payloadKey != "sequenceNumber"
    ensures var fs := EnvelopeFields(event, streamSid, sequence, omitEmpty, payloadKey, payload);
      && Lookup(fs, "event") == Some(Str(event))
      && Lookup(fs, payloadKey) == Some(payload)
      && (if omitEmpty && streamSid == "" then Lookup(fs, "streamSid") == None
          else Lookup(fs, "streamSid") == Some(Str(streamSid)))
      && (if omitEmpty && sequence == 0 then Lookup(fs, "sequenceNumber") == None
          else Lookup(fs, "sequenceNumber") == Some(Num(sequence)))
  {
    var sid := if omitEmpty && streamSid == "" then [] else [StrField("streamSid", streamSid)];
    var num := if omitEmpty && sequence == 0 then [] else [Field("sequenceNumber", Num(sequence))];
    var head := [StrField("event", event)];
    var last := [Field(payloadKey, payload)];
    var fs := EnvelopeFields(event, streamSid, sequence, omitEmpty, payloadKey, payload);
    assert fs == head + sid + num + last;
    assert Lookup(fs, "event") == Some(Str(event)) by {
      LookupAppend(head + sid + num, last, "event");
      LookupAppend(head + sid, num, "event");
      LookupAppend(head, sid, "event");
    }
    assert Lookup(fs, "streamSid") == Lookup(sid, "streamSid") by {
      LookupAppend(head + sid + num, last, "streamSid");
      LookupAppend(head + sid, num, "streamSid");
      LookupAppend(head, sid, "streamSid");
    }
    assert Lookup(fs, "sequenceNumber") == Lookup(num, "sequenceNumber") by {
      LookupAppend(head + sid + num, last, "sequenceNumber");
    }
    LookupAppend(head + sid + num, last, payloadKey);
  }

  /** Omitted members decode to exactly the zero values that caused their
      omission, so an envelope survives encoding and decoding either way. */
  lemma EnvelopeRoundTrip(event: string, streamSid: string, sequence: int64, omitEmpty: bool,
                          payloadKey: string, payload: seq<Field>)
    requires payloadKey != "event" && payloadKey != "streamSid" && payloadKey != "sequenceNumber"
    ensures DecodeEnvelope(Obj(EnvelopeFields(event, streamSid, sequence, omitEmpty, payloadKey, Obj(payload))), payloadKey)
            == Ok(Envelope(event, streamSid, sequence, payload))
  {
    var fs := EnvelopeFields(event, streamSid, sequence, omitEmpty, payloadKey, Obj(payload));
    EnvelopeLookups(event, streamSid, sequence, omitEmpty, payloadKey, Obj(payload));
    GoStringFound(fs, "event", event);
    if omitEmpty && streamSid == "" { GoStringAbsent(fs, "streamSid"); } else { GoStringFound(fs, "streamSid", streamSid); }
    if omitEmpty && sequence == 0 { GoInt64Absent(fs, "sequenceNumber"); } else { GoInt64Found(fs, "sequenceNumber", sequence); }
    DecodeEnvelopeFrom(fs, payloadKey, Envelope(event, streamSid, sequence, payload));
  }

  /** An object whose members decode one by one decodes as the envelope. */
  lemma DecodeEnvelopeFrom(fs: seq<Field>, payloadKey: string, e: Envelope)
    requires GoString(fs, "event") == Ok(e.event) && GoString(fs, "streamSid") == Ok(e.streamSid)
    requires GoInt64(fs, "sequenceNumber") == Ok(e.sequence as int) && Lookup(fs, payloadKey) == Some(Obj(e.payload))
    ensures DecodeEnvelope(Obj(fs), payloadKey) == Ok(e)
  {
  }

  // ---------------------------------------------------------------------------
  // Messages

  datatype StartMessage = StartMessage(event: string, streamSid: string, sequence: int64, start: StartPayload)
  datatype MediaMessage = MediaMessage(event: string, streamSid: string, sequence: int64, media: MediaPayload)
  datatype StopMessage = StopMessage(event: string, streamSid: string, sequence: int64, stop: StopPayload)
  datatype MarkMessage = MarkMessage(event: string, streamSid: string, sequence: int64, mark: MarkPayload)
  datatype DTMFMessage = DTMFMessage(event: string, streamSid: string, sequence: int64, dtmf: DTMFPayload)
  datatype ConnectedMessage = ConnectedMessage(event: string, protocol: string, version: string)
  datatype ClearMessage = ClearMessage(event: string, streamSid: string)

  function StartMessageToJson(m: StartMessage): (j: Json)
    ensures HasKey(j, "streamSid") && HasKey(j, "sequenceNumber")
  {
    EnvelopeLookups(m.event, m.streamSid, m.sequence, false, "start", StartPayloadToJson(m.start));
    Obj(EnvelopeFields(m.event, m.streamSid, m.sequence, false, "start", StartPayloadToJson(m.start)))
  }

  function StopMessageToJson(m: StopMessage): (j: Json)
    ensures HasKey(j, "streamSid") && HasKey(j, "sequenceNumber")
  {
    EnvelopeLookups(m.event, m.streamSid, m.sequence, false, "stop", StopPayloadToJson(m.stop));
    Obj(EnvelopeFields(m.event, m.streamSid, m.sequence, false, "stop", StopPayloadToJson(m.stop)))
  }

  function MediaMessageToJson(m: MediaMessage): (j: Json)
    ensures HasKey(j, "streamSid") <==> m.streamSid != ""
    ensures HasKey(j, "sequenceNumber") <==> m.sequence != 0
  {
    EnvelopeLookups(m.event, m.streamSid, m.sequence, true, "media", MediaPayloadToJson(m.media));
    Obj(EnvelopeFields(m.event, m.streamSid, m.sequence, true, "media", MediaPayloadToJson(m.media)))
  }

  function MarkMessageToJson(m: MarkMessage): (j: Json)
    ensures HasKey(j, "streamSid") <==> m.streamSid != ""
    ensures HasKey(j, "sequenceNumber") <==> m.sequence != 0
  {
    EnvelopeLookups(m.event, m.streamSid, m.sequence, true, "mark", MarkPayloadToJson(m.mark));
    Obj(EnvelopeFields(m.event, m.streamSid, m.sequence, true, "mark", MarkPayloadToJson(m.mark)))
  }

  function DTMFMessageToJson(m: DTMFMessage): (j: Json)
    ensures HasKey(j, "streamSid") <==> m.streamSid != ""
    ensures HasKey(j, "sequenceNumber") <==> m.sequence != 0
  {
    EnvelopeLookups(m.event, m.streamSid, m.sequence, true, "dtmf", DTMFPayloadToJson(m.dtmf));
    Obj(EnvelopeFields(m.event, m.streamSid, m.sequence, true, "dtmf", DTMFPayloadToJson(m.dtmf)))
  }

  /** A clear message has no sequence number and no payload. */
  function ClearMessageToJson(m: ClearMessage): (j: Json)
    ensures j.Obj? && Keys(j.fields) == ["event", "streamSid"]
  {
    Obj([StrField("event", m.event), StrField("streamSid", m.streamSid)])
  }

  function ConnectedMessageToJson(m: ConnectedMessage): (j: Json)
    ensures j.Obj? && Keys(j.fields) == ["event", "protocol", "version"]
  {
    Obj([StrField("event", m.event), StrField("protocol", m.protocol), StrField("version", m.version)])
  }

  function MediaMessageFromJson(j: Json): Result<MediaMessage, DecodeError> {
    var e :- DecodeEnvelope(j, "media");
    var p :- MediaPayloadFromFields(e.payload);
    Ok(MediaMessage(e.event, e.streamSid, e.sequence, p))
  }

  function MarkMessageFromJson(j: Json): Result<MarkMessage, DecodeError> {
    var e :- DecodeEnvelope(j, "mark");
    var p :- MarkPayloadFromFields(e.payload);
    Ok(MarkMessage(e.event, e.streamSid, e.sequence, p))
  }

  function DTMFMessageFromJson(j: Json): Result<DTMFMessage, DecodeError> {
    var e :- DecodeEnvelope(j, "dtmf");
    var p :- DTMFPayloadFromFields(e.payload);
    Ok(DTMFMessage(e.event, e.streamSid, e.sequence, p))
  }

  function StartMessageFromJson(j: Json): Result<StartMessage, DecodeError> {
    var e :- DecodeEnvelope(j, "start");
    var p :- StartPayloadFromFields(e.payload);
    Ok(StartMessage(e.event, e.streamSid, e.sequence, p))
  }

  function StopMessageFromJson(j: Json): Result<StopMessage, DecodeError> {
    var e :- DecodeEnvelope(j, "stop");
    var p :- StopPayloadFromFields(e.payload);
    Ok(StopMessage(e.event, e.streamSid, e.sequence, p))
  }

  /** An outbound media frame decodes back to itself, payload bytes included. */
  lemma MediaMessageRoundTrip(m: MediaMessage)
    ensures MediaMessageFromJson(MediaMessageToJson(m)) == Ok(m)
  {
    var p := MediaPayloadToJson(m.media);
    EnvelopeRoundTrip(m.event, m.streamSid, m.sequence, true, "media", p.fields);
    Lookup2(StrField("payload", m.media.payload), StrField("track", m.media.track));
  }

  lemma MarkMessageRoundTrip(m: MarkMessage)
    ensures MarkMessageFromJson(MarkMessageToJson(m)) == Ok(m)
  {
    var p := MarkPayloadToJson(m.mark);
    EnvelopeRoundTrip(m.event, m.streamSid, m.sequence, true, "mark", p.fields);
  }

  lemma DTMFMessageRoundTrip(m: DTMFMessage)
    ensures DTMFMessageFromJson(DTMFMessageToJson(m)) == Ok(m)
  {
    var p := DTMFPayloadToJson(m.dtmf);
    EnvelopeRoundTrip(m.event, m.streamSid, m.sequence, true, "dtmf", p.fields);
    Lookup2(StrField("track", m.dtmf.track), StrField("digit", m.dtmf.digit));
  }

  lemma StartMessageRoundTrip(m: StartMessage)
    ensures StartMessageFromJson(StartMessageToJson(m)) == Ok(m)
  {
    var p := StartPayloadToJson(m.start);
    EnvelopeRoundTrip(m.event, m.streamSid, m.sequence, false, "start", p.fields);
    StartPayloadRoundTrip(m.start);
  }

  lemma StopMessageRoundTrip(m: StopMessage)
    ensures StopMessageFromJson(StopMessageToJson(m)) == Ok(m)
  {
    var p := StopPayloadToJson(m.stop);
    EnvelopeRoundTrip(m.event, m.streamSid, m.sequence, false, "stop", p.fields);
    Lookup2(StrField("accountSid", m.stop.accountSid), StrField("streamSid", m.stop.streamSid));
  }
}

=== FILE: json.dfy ===
/** An abstract JSON document, the decoding rules Go's encoding/json applies
    when it fills a struct from one, and the compact text Ruby's JSON generator
    prints for one. Objects keep their members in document order. */
module Json {
  import opened Base
  import Text

  datatype Json =
    | Null
    | Bool(b: bool)
    | Num(n: int)
    | Str(s: string)
    | Arr(items: seq<Json>)
    | Obj(fields: seq<Field>)

  datatype Field = Field(key: string, value: Json)

  function Keys(fields: seq<Field>): (r: seq<string>)
    ensures |r| == |fields|
    ensures forall i :: 0 <= i < |fields| ==> r[i] == fields[i].key
  {
    if fields == [] then [] else Keys(fields[..|fields| - 1]) + [fields[|fields| - 1].key]
  }

  /** The member a Go decoder ends up with: the last one carrying `key`. */
  function Lookup(fields: seq<Field>, key: string): (r: Option<Json>)
    ensures r.Some? <==> key in Keys(fields)
    ensures r.Some? ==> Field(key, r.value) in fields
  {
    if fields == [] then None
    else if fields[|fields| - 1].key == key then Some(fields[|fields| - 1].value)
    else Lookup(fields[..|fields| - 1], key)
  }

  lemma LookupSnoc(fields: seq<Field>, f: Field, key: string)
    ensures Lookup(fields + [f], key) == if f.key == key then Some(f.value) else Lookup(fields, key)
  {
    assert (fields + [f])[..|fields|] == fields;
  }

  lemma {:induction false} LookupAppend(a: seq<Field>, b: seq<Field>, key: string)
    ensures Lookup(a + b, key) == if key in Keys(b) then Lookup(b, key) else Lookup(a, key)
  {
    if b == [] {
      assert a + b == a;
    } else {
      var b' := b[..|b| - 1];
      assert (a + b)[..|a + b| - 1] == a + b';
      assert Keys(b) == Keys(b') + [b[|b| - 1].key];
      LookupAppend(a, b', key);
    }
  }

  /** A key none of four members carries is not found. */
  lemma LookupAbsent4(a: Field, b: Field, c: Field, d: Field, key: string)
    requires a.key != key && b.key != key && c.key != key && d.key != key
    ensures Lookup([a, b, c, d], key) == None
  {
    assert [a, b, c, d][..3] == [a, b, c];
    assert [a, b, c][..2] == [a, b];
    assert [a, b][..1] == [a];
  }

  /** Lookups in short member lists with distinct keys: each member is found
      under its own key. */
  lemma Lookup2(a: Field, b: Field)
    requires a.key != b.key
    ensures Lookup([a, b], a.key) == Some(a.value)
    ensures Lookup([a, b], b.key) == Some(b.value)
  {
    assert [a, b][..1] == [a];
  }

  lemma Lookup3(a: Field, b: Field, c: Field)
    requires a.key != b.key && a.key != c.key && b.key != c.key
    ensures Lookup([a, b, c], a.key) == Some(a.value)
    ensures Lookup([a, b, c], b.key) == Some(b.value)
    ensures Lookup([a, b, c], c.key) == Some(c.value)
  {
    assert [a, b, c][..2] == [a, b];
    Lookup2(a, b);
  }

  lemma Lookup4(a: Field, b: Field, c: Field, d: Field)
    requires a.key != b.key && a.key != c.key && a.key != d.key
    requires b.key != c.key && b.key != d.key && c.key != d.key
    ensures Lookup([a, b, c, d], a.key) == Some(a.value)
    ensures Lookup([a, b, c, d], b.key) == Some(b.value)
    ensures Lookup([a, b, c, d], c.key) == Some(c.value)
    ensures Lookup([a, b, c, d], d.key) == Some(d.value)
  {
    assert [a, b, c, d][..3] == [a, b, c];
    Lookup3(a, b, c);
  }

  /** The object members under `key`, or None when `j` is not an object or lacks it. */
  function Get(j: Json, key: string): Option<Json> {
    if j.Obj? then Lookup(j.fields, key) else None
  }

  predicate HasKey(j: Json, key: string) {
    j.Obj? && key in Keys(j.fields)
  }

  // ---------------------------------------------------------------------------
  // Go decoding into struct fields

  datatype DecodeError = TypeMismatch(key: string) | NotAnObject

  /** A Go `string` struct field: absent or null keeps the zero value "". */
  function GoString(fields: seq<Field>, key: string): (r: Result<string, DecodeError>)
    ensures r.Ok? && r.value != "" ==> Lookup(fields, key) == Some(Str(r.value))
    ensures Lookup(fields, key).Some? && Lookup(fields, key).value.Str? ==> r == Ok(Lookup(fields, key).value.s)
  {
    match Lookup(fields, key)
    case None => Ok("")
    case Some(Null) => Ok("")
    case Some(Str(s)) => Ok(s)
    case Some(_) => Err(TypeMismatch(key))
  }

  lemma GoStringFound(fields: seq<Field>, key: string, v: string)
    requires Lookup(fields, key) == Some(Str(v))
    ensures GoString(fields, key) == Ok(v)
  {
  }

  /** An absent member keeps Go's zero value. */
  lemma GoStringAbsent(fields: seq<Field>, key: string)
    requires Lookup(fields, key) == None
    ensures GoString(fields, key) == Ok("")
  {
  }

  const Int64Min: int := -0x8000_0000_0000_0000
  const Int64Max: int := 0x7FFF_FFFF_FFFF_FFFF

  /** A Go `int64` struct field: absent or null keeps 0; a number outside the
      64-bit range is a decoding error. */
  function GoInt64(fields: seq<Field>, key: string): (r: Result<int, DecodeError>)
    ensures r.Ok? ==> Int64Min <= r.value <= Int64Max
    ensures r.Ok? && r.value != 0 ==> Lookup(fields, key) == Some(Num(r.value))
  {
    match Lookup(fields, key)
    case None => Ok(0)
    case Some(Null) => Ok(0)
    case Some(Num(n)) => if Int64Min <= n <= Int64Max then Ok(n) else Err(TypeMismatch(key))
    case Some(_) => Err(TypeMismatch(key))
  }

  lemma GoInt64Found(fields: seq<Field>, key: string, n: int)
    requires Lookup(fields, key) == Some(Num(n)) && Int64Min <= n <= Int64Max
    ensures GoInt64(fields, key) == Ok(n)
  {
  }

  /** An absent member keeps Go's zero value. */
  lemma GoInt64Absent(fields: seq<Field>, key: string)
    requires Lookup(fields, key) == None
    ensures GoInt64(fields, key) == Ok(0)
  {
  }

  /** The members of a document decoded into a Go struct: null decodes to the
      zero struct (no members), any other non-object is an error. */
  function GoStructFields(j: Json): (r: Result<seq<Field>, DecodeError>)
    ensures j.Obj? ==> r == Ok(j.fields)
    ensures j.Null? ==> r == Ok([])
    ensures r.Err? <==> !j.Obj? && !j.Null?
  {
    match j
    case Obj(fs) => Ok(fs)
    case Null => Ok([])
    case _ => Err(NotAnObject)
  }

  // ---------------------------------------------------------------------------
  // Ruby JSON generation (compact form)

  function HexDigit(d: nat): char
    requires d < 16
  {
    if d < 10 then Text.DigitChar(d) else ('a' as int + (d - 10)) as char
  }

  function EscapeChar(c: char): (r: string)
    ensures |r| >= 1
  {
    if c == '"' then "\\\""
    else if c == '\\' then "\\\\"
    else if c == '\n' then "\\n"
    else if c == '\r' then "\\r"
    else if c == '\t' then "\\t"
    else if c == '\U{08}' then "\\b"
    else if c == '\U{0C}' then "\\f"
    else if (c as int) < 0x20 then "\\u00" + [HexDigit((c as int) / 16), HexDigit((c as int) % 16)]
    else [c]
  }

  function Escape(s: string): string {
    if s == [] then "" else EscapeChar(s[0]) + Escape(s[1..])
  }

  function Render(j: Json): (r: string)
    ensures r != ""
    decreases j
  {
    match j
    case Null => "null"
    case Bool(b) => if b then "true" else "false"
    case Num(n) => Text.IntToString(n)
    case Str(s) => "\"" + Escape(s) + "\""
    case Arr(items) =>
      "[" + Text.Join(seq(|items|, i requires 0 <= i < |items| => Render(items[i])), ",") + "]"
    case Obj(fields) =>
      "{" + Text.Join(seq(|fields|, i requires 0 <= i < |fields| =>
                            "\"" + Escape(fields[i].key) + "\":" + Render(fields[i].value)), ",") + "}"
  }
}

=== FILE: media_stream_channel.dfy ===
/** The Rails channel behind a call: the keypad menu, the transcript log
    direction, the tool calls the realtime model makes, the configuration it
    asks for, and the two-frame audio transmission. Text-to-speech, JSON
    parsing and date formatting are parameters. */
module MediaStreamChannel {
  import opened Base
  import opened Json
  import Text
  import opened Todos
  import opened RbsTools
  import opened OpenAITools

  const ResponseState := "anycable_response"
  const ConfigurationEvent := "openai.configuration"
  const FunctionCallResultEvent := "openai.function_call_result"

  /** What the channel needs from outside: the clock, the stream it talks to
      and the library calls it makes. */
  datatype ChannelEnv = ChannelEnv(
    today: int,
    now: int,
    streamSid: Option<string>,
    tts: string -> string,
    parseJson: string -> Option<Json>,
    parseDate: string -> Option<int>,
    formatDate: int -> string,
    inspect: Json -> string)

  // ---------------------------------------------------------------------------
  // Replies to the server and transmissions to the caller

  /** `reply_with`: the channel-state slot the server reads the answer from. */
  function ReplyWith(event: string, data: Json): (istate: map<string, Json>)
    ensures istate.Keys == {ResponseState}
    ensures Get(istate[ResponseState], "event") == Some(Str(event))
    ensures Get(istate[ResponseState], "data") == Some(data)
  {
    Lookup2(Field("event", Str(event)), Field("data", data));
    map[ResponseState := Obj([Field("event", Str(event)), Field("data", data)])]
  }

  function SidJson(sid: Option<string>): Json {
    if sid.Some? then Str(sid.value) else Null
  }

  /** A frame for the stream: the event, the stream id and, under `member`,
      an object with the one string `field`. */
  function StreamFrame(event: string, sid: Option<string>, member: string, field: string, value: string): (j: Json)
    requires member != "event" && member != "streamSid"
    ensures Get(j, "event") == Some(Str(event))
    ensures Get(j, "streamSid") == Some(SidJson(sid))
    ensures Get(j, member).Some? && Get(Get(j, member).value, field) == Some(Str(value))
  {
    var fs := [Field("event", Str(event)), Field("streamSid", SidJson(sid)), Field(member, Obj([Field(field, Str(value))]))];
    Lookup3(fs[0], fs[1], fs[2]);
    Obj(fs)
  }

  /** `transmit_message`: the spoken audio as a media frame, then a mark frame
      named `id` so the caller reports when the audio has played. */
  function TransmitMessage(sid: Option<string>, id: string, payload: string): (r: seq<Json>)
    ensures |r| == 2
    ensures Get(r[0], "event") == Some(Str("media")) && Get(r[1], "event") == Some(Str("mark"))
    ensures Get(r[0], "streamSid") == Get(r[1], "streamSid") == Some(SidJson(sid))
    ensures Get(r[0], "media").Some? && Get(Get(r[0], "media").value, "payload") == Some(Str(payload))
    ensures Get(r[1], "mark").Some? && Get(Get(r[1], "mark").value, "name") == Some(Str(id))
  {
    [StreamFrame("media", sid, "media", "payload", payload), StreamFrame("mark", sid, "mark", "name", id)]
  }

  // ---------------------------------------------------------------------------
  // Keypad menu

  /** The Monday that starts the week of `day`; day 0, 1970-01-01, was a Thursday. */
  function WeekStart(day: int): (r: int)
    ensures r <= day <= r + 6
    ensures (r + 3) % 7 == 0
  {
    day - (day + 3) % 7
  }

  datatype Period = Period(name: string, first: int, last: int)

  /** Digit 1, 2 or 3 selects today, tomorrow or the current Monday-to-Sunday
      week; any other value selects nothing. */
  function PeriodFor(digit: int, today: int): (r: Option<Period>)
    ensures r.Some? <==> 1 <= digit <= 3
    ensures r.Some? ==> r.value.first <= today + 1 && r.value.first <= r.value.last
    ensures digit == 1 ==> r == Some(Period("today", today, today))
    ensures digit == 2 ==> r == Some(Period("tomorrow", today + 1, today + 1))
    ensures digit == 3 ==> r.value.name == "this week" && r.value.first <= today <= r.value.last
                           && r.value.last - r.value.first == 6
  {
    if digit == 1 then Some(Period("today", today, today))
    else if digit == 2 then Some(Period("tomorrow", today + 1, today + 1))
    else if digit == 3 then Some(Period("this week", WeekStart(today), WeekStart(today) + 6))
    else None
  }

  const NoTasksPrefix := "You don't have any tasks for "
  const TasksPrefix := "Here is what you have for "

  /** The spoken answer: a "none" sentence, or the period and the task
      descriptions separated by commas. */
  function Phrase(period: string, descriptions: seq<string>): (r: string)
    ensures descriptions == [] ==> r == NoTasksPrefix + period
    ensures descriptions != [] ==> Text.StartsWith(r, TasksPrefix + period + ":\n")
    ensures descriptions != [] ==> r[|TasksPrefix + period + ":\n"|..] == Text.Join(descriptions, ",")
  {
    if descriptions == [] then NoTasksPrefix + period
    else
      var head := TasksPrefix + period + ":\n";
      var r := head + Text.Join(descriptions, ",");
      assert r[..|head|] == head;
      assert r[|head|..] == Text.Join(descriptions, ",");
      r
  }

  /** A description as `join` prints it: nil prints nothing. */
  function Descriptions(rows: seq<Row>): (r: seq<string>)
    ensures |r| == |rows|
    ensures forall i :: 0 <= i < |rows| ==> r[i] == (if rows[i].description.Some? then rows[i].description.value else "")
  {
    if rows == [] then [] else [if rows[0].description.Some? then rows[0].description.value else ""] + Descriptions(rows[1..])
  }

  /** `data["digit"].to_i`; a missing digit is nil, whose `to_i` is 0. */
  function DigitOf(data: map<string, string>): (d: int)
    ensures "digit" !in data ==> d == 0
    ensures "digit" in data ==> d == Text.ToI(data["digit"])
  {
    if "digit" in data then Text.ToI(data["digit"]) else 0
  }

  function MarkId(digit: int): string {
    "dtmf_response_" + Text.IntToString(digit)
  }

  /** `handle_dtmf`: for a menu digit, speak the incomplete tasks due in the
      period, marked `dtmf_response_<digit>`; for anything else stay silent. */
  function HandleDtmf(env: ChannelEnv, db: seq<Row>, data: map<string, string>): (r: seq<Json>)
    ensures r == [] <==> !(1 <= DigitOf(data) <= 3)
    ensures r != [] ==>
              var p := PeriodFor(DigitOf(data), env.today).value;
              var due := Filter(db, IncompleteDue(Some((p.first, p.last))));
              r == TransmitMessage(env.streamSid, MarkId(DigitOf(data)), env.tts(Phrase(p.name, Descriptions(due))))
  {
    var digit := DigitOf(data);
    match PeriodFor(digit, env.today)
    case None => []
    case Some(p) =>
      var due := Filter(db, IncompleteDue(Some((p.first, p.last))));
      TransmitMessage(env.streamSid, MarkId(digit), env.tts(Phrase(p.name, Descriptions(due))))
  }

  /** The keys `*` and `#`, and a missing digit, read as 0: no menu entry. */
  lemma StarAndHashAreSilent(env: ChannelEnv, db: seq<Row>)
    ensures HandleDtmf(env, db, map["digit" := "*"]) == []
    ensures HandleDtmf(env, db, map["digit" := "#"]) == []
    ensures HandleDtmf(env, db, map[]) == []
  {
    KeyReadsZero("*");
    KeyReadsZero("#");
  }

  lemma KeyReadsZero(key: string)
    requires key == "*" || key == "#"
    ensures DigitOf(map["digit" := key]) == 0
  {
    Text.ToINonNumeric(key);
  }

  /** A pressed menu digit comes back in the mark id. */
  lemma MenuDigitRoundTrip(d: int)
    requires 1 <= d <= 3
    ensures DigitOf(map["digit" := Text.IntToString(d)]) == d
    ensures MarkId(d) == "dtmf_response_" + Text.IntToString(d)
  {
    Text.ToIOfIntToString(d);
  }

  /** The tasks read out are exactly the incomplete ones due in the period. */
  lemma DtmfReadsDueTasks(env: ChannelEnv, db: seq<Row>, d: int, row: Row)
    requires 1 <= d <= 3 && row in db
    ensures var p := PeriodFor(d, env.today).value;
      row in Filter(db, IncompleteDue(Some((p.first, p.last)))) <==>
        row.completedAt.None? && row.deadline.Some? && p.first <= row.deadline.value <= p.last
  {
  }

  // ---------------------------------------------------------------------------
  // Transcripts

  /** The log direction: "<" for what the caller said, ">" for everything else. */
  function TranscriptDirection(data: map<string, string>): (r: string)
    ensures r == "<" <==> "role" in data && data["role"] == "user"
    ensures r == ">" <==> !("role" in data && data["role"] == "user")
  {
    if "role" in data && data["role"] == "user" then "<" else ">"
  }

  /** `handle_transcript`: the log line; a missing text prints nothing. */
  function TranscriptLine(data: map<string, string>): (r: string)
    ensures Text.StartsWith(r, TranscriptDirection(data) + " ")
    ensures "text" in data ==> r[2..] == data["text"]
  {
    var line := TranscriptDirection(data) + " " + (if "text" in data then data["text"] else "");
    assert line[..2] == TranscriptDirection(data) + " ";
    line
  }

  // ---------------------------------------------------------------------------
  // Tools

  const GetTasks := "get_tasks"
  const CreateTask := "create_task"
  const CompleteTask := "complete_task"
  const DeleteTask := "delete_task"

  /** The class registers its four tools in declaration order. */
  const Registry: ToolClass := RegisterAll(NewToolClass, [GetTasks, CreateTask, CompleteTask, DeleteTask])

  /** The keyword types of the tools' inline signatures. */
  const PeriodType := Union([LSym("today"), LSym("tomorrow"), LSym("week")])

  /** The inline signatures of the four tools, with their doc comments. */
  function ToolDecl(name: string, comment: Option<string>): MethodDecl {
    if name == GetTasks then MethodDecl(comment, [Keyword("period", PeriodType)], [])
    else if name == CreateTask then
      MethodDecl(comment, [Keyword("deadline", ClassInstance(ClassKind, "Date")),
                           Keyword("description", ClassInstance(ClassKind, "String"))], [])
    else MethodDecl(comment, [Keyword("id", ClassInstance(ClassKind, "Integer"))], [])
  }

  /** get_tasks publishes one required property, `period`, a string enum of
      today, tomorrow and week. */
  lemma GetTasksSpec(comment: Option<string>)
    ensures SpecOf(GetTasks, ToolDecl(GetTasks, comment)).required == ["period"]
    ensures SpecOf(GetTasks, ToolDecl(GetTasks, comment)).properties ==
              [Property("period", Obj([Field("type", Str("string")),
                                       Field("enum", Arr([Str("today"), Str("tomorrow"), Str("week")]))]))]
  {
    var d := ToolDecl(GetTasks, comment);
    var p := Property("period", Obj([Field("type", Str("string")),
                                     Field("enum", Arr([Str("today"), Str("tomorrow"), Str("week")]))]));
    assert EnumJson(PeriodType.literals) == [Str("today"), Str("tomorrow"), Str("week")];
    assert RequiredKeywords(d) == [p];
    SpecOfOne(GetTasks, d, p);
  }

  /** create_task publishes two required properties: a date `deadline` and a
      string `description`. */
  lemma CreateTaskSpec(comment: Option<string>)
    ensures SpecOf(CreateTask, ToolDecl(CreateTask, comment)).required == ["deadline", "description"]
    ensures SpecOf(CreateTask, ToolDecl(CreateTask, comment)).properties ==
              [Property("deadline", Obj([Field("type", Str("string")), Field("format", Str("date"))])),
               Property("description", Obj([Field("type", Str("string"))]))]
  {
    var a := Keyword("deadline", ClassInstance(ClassKind, "Date"));
    var b := Keyword("description", ClassInstance(ClassKind, "String"));
    var d := ToolDecl(CreateTask, comment);
    assert d == MethodDecl(comment, [a, b], []);
    var p := Property("deadline", Obj([Field("type", Str("string")), Field("format", Str("date"))]));
    var q := Property("description", Obj([Field("type", Str("string"))]));
    assert PropertyOf(a) == p;
    assert PropertyOf(b) == q;
    KeywordPropertiesTwo(a, b);
    SpecOfTwo(CreateTask, d, p, q);
  }

  datatype RaisedError =
    | NameMissing
    | UnknownMethod
    | InvalidArguments
    | NotKeywords
    | WrongKeywords
    | RecordInvalid(messages: seq<string>)

  datatype CallOutcome = NotInvoked | Invoked(result: Json) | Raised(error: RaisedError)

  datatype CallStep = CallStep(db: seq<Row>, outcome: CallOutcome, istate: map<string, Json>)

  function KeySet(fs: seq<Field>): set<string> {
    set i | 0 <= i < |fs| :: fs[i].key
  }

  /** The columns `as_json(only: [:id, :deadline, :description])` keeps, in
      table column order. */
  function RowJson(env: ChannelEnv, r: Row): (j: Json)
    ensures j.Obj? && Keys(j.fields) == ["id", "description", "deadline"]
  {
    Obj([Field("id", Num(r.id)),
         Field("description", if r.description.Some? then Str(r.description.value) else Null),
         Field("deadline", if r.deadline.Some? then Str(env.formatDate(r.deadline.value)) else Null)])
  }

  function RowsJson(env: ChannelEnv, rows: seq<Row>): (r: seq<Json>)
    ensures |r| == |rows|
    ensures forall i :: 0 <= i < |rows| ==> r[i] == RowJson(env, rows[i])
  {
    if rows == [] then [] else [RowJson(env, rows[0])] + RowsJson(env, rows[1..])
  }

  /** The range `get_tasks` filters on; an unknown period is nil, which
      selects the tasks without a deadline. */
  function TaskRange(env: ChannelEnv, period: Json): (r: Option<(int, int)>)
    ensures r.Some? <==> period in {Str("today"), Str("tomorrow"), Str("week")}
  {
    if period == Str("today") then Some((env.today, env.today))
    else if period == Str("tomorrow") then Some((env.today + 1, env.today + 1))
    else if period == Str("week") then Some((WeekStart(env.today), WeekStart(env.today) + 6))
    else None
  }

  /** Every value of the published `period` enum selects a day range. */
  lemma PeriodEnumSelectsRanges(env: ChannelEnv)
    ensures forall v :: v in EnumJson(PeriodType.literals) ==> TaskRange(env, v).Some?
  {
  }

  function GetTasksResult(env: ChannelEnv, db: seq<Row>, period: Json): (r: Json)
    ensures Get(r, "todos") == Some(Arr(RowsJson(env, Filter(db, IncompleteDue(TaskRange(env, period))))))
  {
    Obj([Field("todos", Arr(RowsJson(env, Filter(db, IncompleteDue(TaskRange(env, period))))))])
  }

  /** How ActiveModel casts a value for a string attribute: nil stays nil, a
      string is kept, an integer becomes its decimal text, true and false
      become "t" and "f", and anything else its inspected text. */
  function CastString(env: ChannelEnv, j: Json): (r: Option<string>)
    ensures r.None? <==> j.Null?
    ensures j.Str? ==> r == Some(j.s)
    ensures j.Num? ==> r.Some? && Text.ToI(r.value) == j.n
    ensures j.Bool? ==> r == Some(if j.b then "t" else "f")
  {
    match j
    case Null => None
    case Str(s) => Some(s)
    case Num(n) =>
      Text.ToIOfIntToString(n);
      Some(Text.IntToString(n))
    case Bool(b) => Some(if b then "t" else "f")
    case _ => Some(env.inspect(j))
  }

  /** How ActiveModel casts a value for a date attribute: a string gives the
      day it parses to, or nil; null and an object (a multiparameter hash
      without date parts) give nil. The values ActiveModel keeps uncast are
      read as nil as well. */
  function CastDate(env: ChannelEnv, j: Json): (r: Option<int>)
    ensures r.Some? ==> j.Str?
    ensures j.Str? ==> r == env.parseDate(j.s)
    ensures j.Null? || j.Obj? ==> r.None?
  {
    if j.Str? then env.parseDate(j.s) else None
  }

  function MaxId(db: seq<Row>): (m: int)
    ensures forall x :: x in db ==> x.id <= m
    ensures m >= 0
  {
    if db == [] then 0 else
      var rest := MaxId(db[1..]);
      if db[0].id > rest then db[0].id else rest
  }

  /** The id the database hands a new row. */
  function NextId(db: seq<Row>): (id: int)
    ensures forall x :: x in db ==> x.id != id
  {
    MaxId(db) + 1
  }

  function StatusJson(status: string): Json {
    Obj([Field("status", Str(status))])
  }

  function FailedJson(message: string): (j: Json)
    ensures Get(j, "status") == Some(Str("failed")) && Get(j, "message") == Some(Str(message))
  {
    Lookup2(Field("status", Str("failed")), Field("message", Str(message)));
    Obj([Field("status", Str("failed")), Field("message", Str(message))])
  }

  /** `create_task`: save a new incomplete task, or report the validation
      messages joined with ", ". */
  function CreateTaskCall(env: ChannelEnv, db: seq<Row>, deadline: Json, description: Json): (r: (seq<Row>, Json))
    ensures var t := Todo(NextId(db), CastString(env, description), CastDate(env, deadline), None, false);
      match Validate(t, env.now)
      case Ok(saved) =>
        && r.0 == db + [Store(saved)]
        && Get(r.1, "status") == Some(Str("created"))
        && Get(r.1, "todo") == Some(RowJson(env, Store(saved)))
      case Err(errors) => r == (db, FailedJson(Text.Join(errors, ", ")))
  {
    var t := Todo(NextId(db), CastString(env, description), CastDate(env, deadline), None, false);
    match Validate(t, env.now)
    case Ok(saved) =>
      Lookup2(Field("status", Str("created")), Field("todo", RowJson(env, Store(saved))));
      (db + [Store(saved)], Obj([Field("status", Str("created")), Field("todo", RowJson(env, Store(saved)))]))
    case Err(errors) => (db, FailedJson(Text.Join(errors, ", ")))
  }

  const TaskNotFound := "Task not found"

  /** `find_by(id:)` with the id cast to an integer; non-numbers find nothing. */
  function FindTask(db: seq<Row>, id: Json): (r: Option<Row>)
    ensures r.Some? ==> id.Num? && r.value in db && r.value.id == id.n
    ensures id.Num? && (exists x :: x in db && x.id == id.n) ==> r.Some?
  {
    if id.Num? then FindById(db, id.n) else None
  }

  /** `complete_task`: mark the task completed (saving through validation,
      which raises on an invalid record), or report it missing. */
  function CompleteTaskCall(env: ChannelEnv, db: seq<Row>, id: Json): (r: Result<(seq<Row>, Json), RaisedError>)
    ensures FindTask(db, id).None? ==> r == Ok((db, FailedJson(TaskNotFound)))
    ensures FindTask(db, id).Some? && r.Ok? ==>
              && r.value.1 == StatusJson("completed")
              && var row := FindTask(db, id).value;
                 r.value.0 == ReplaceId(db, row.(completedAt := Some(env.now)))
    ensures r.Err? <==> FindTask(db, id).Some? && Validate(Load(FindTask(db, id).value).(completed := true), env.now).Err?
  {
    match FindTask(db, id)
    case None => Ok((db, FailedJson(TaskNotFound)))
    case Some(row) =>
      match Validate(Load(row).(completed := true), env.now)
      case Err(errors) => Err(RecordInvalid(errors))
      case Ok(saved) => Ok((ReplaceId(db, Store(saved)), StatusJson("completed")))
  }

  /** `delete_task`: remove the task, or report it missing. */
  function DeleteTaskCall(db: seq<Row>, id: Json): (r: (seq<Row>, Json))
    ensures FindTask(db, id).None? ==> r == (db, FailedJson(TaskNotFound))
    ensures FindTask(db, id).Some? ==>
              && r.1 == StatusJson("completed")
              && forall x :: x in r.0 <==> x in db && x.id != id.n
  {
    match FindTask(db, id)
    case None => (db, FailedJson(TaskNotFound))
    case Some(row) => (RemoveId(db, row.id), StatusJson("completed"))
  }

  /** Ruby's keyword-argument binding: exactly the declared keywords. */
  predicate BindsKeywords(args: seq<Field>, names: set<string>) {
    KeySet(args) == names
  }

  /** The keyword names each tool's signature declares. */
  function ToolKeywords(name: string): set<string> {
    if name == GetTasks then {"period"}
    else if name == CreateTask then {"deadline", "description"}
    else {"id"}
  }

  /** `public_send(name, **args)`: exactly the declared keywords reach the
      named tool's method; any other keys, or arguments that are not an
      object, raise; a name that is no tool raises NoMethodError. */
  function Invoke(env: ChannelEnv, db: seq<Row>, name: string, args: Json): (r: Result<(seq<Row>, Json), RaisedError>)
    ensures !args.Obj? ==> r == Err(NotKeywords)
    ensures args.Obj? && name !in Registry.tools ==> r == Err(UnknownMethod)
    ensures args.Obj? && name in Registry.tools && !BindsKeywords(args.fields, ToolKeywords(name)) ==> r == Err(WrongKeywords)
    ensures args.Obj? && name == GetTasks && BindsKeywords(args.fields, {"period"}) ==>
              "period" in Keys(args.fields)
              && r == Ok((db, GetTasksResult(env, db, Lookup(args.fields, "period").value)))
    ensures args.Obj? && name == CreateTask && BindsKeywords(args.fields, {"deadline", "description"}) ==>
              "deadline" in Keys(args.fields) && "description" in Keys(args.fields)
              && r == Ok(CreateTaskCall(env, db, Lookup(args.fields, "deadline").value, Lookup(args.fields, "description").value))
    ensures args.Obj? && name == CompleteTask && BindsKeywords(args.fields, {"id"}) ==>
              "id" in Keys(args.fields) && r == CompleteTaskCall(env, db, Lookup(args.fields, "id").value)
    ensures args.Obj? && name == DeleteTask && BindsKeywords(args.fields, {"id"}) ==>
              "id" in Keys(args.fields) && r == Ok(DeleteTaskCall(db, Lookup(args.fields, "id").value))
    ensures r.Ok? && name != CreateTask && name != CompleteTask && name != DeleteTask ==> r.value.0 == db
  {
    if !args.Obj? then Err(NotKeywords)
    else
      var fs := args.fields;
      if name !in Registry.tools then Err(UnknownMethod)
      else if !BindsKeywords(fs, ToolKeywords(name)) then Err(WrongKeywords)
      else if name == GetTasks then Ok((db, GetTasksResult(env, db, Lookup(fs, "period").value)))
      else if name == CreateTask then
        Ok(CreateTaskCall(env, db, Lookup(fs, "deadline").value, Lookup(fs, "description").value))
      else if name == CompleteTask then CompleteTaskCall(env, db, Lookup(fs, "id").value)
      else Ok(DeleteTaskCall(db, Lookup(fs, "id").value))
  }

  /** `handle_function_call`: parse the arguments (failing before anything
      else), invoke nothing unless the name is a registered tool, and reply
      with the tool's result. */
  function HandleFunctionCall(env: ChannelEnv, db: seq<Row>, data: map<string, string>): (r: CallStep)
    ensures "name" !in data ==> r == CallStep(db, Raised(NameMissing), map[])
    ensures "name" in data && ("arguments" !in data || env.parseJson(data["arguments"]).None?) ==>
              r == CallStep(db, Raised(InvalidArguments), map[])
    ensures ("name" in data && "arguments" in data && env.parseJson(data["arguments"]).Some?
             && data["name"] !in Registry.tools) ==> r == CallStep(db, NotInvoked, map[])
    ensures ("name" in data && "arguments" in data && env.parseJson(data["arguments"]).Some?
             && data["name"] in Registry.tools) ==>
              r == match Invoke(env, db, data["name"], env.parseJson(data["arguments"]).value)
                   case Err(e) => CallStep(db, Raised(e), map[])
                   case Ok(result) => CallStep(result.0, Invoked(result.1), ReplyWith(FunctionCallResultEvent, result.1))
    ensures r.outcome.Invoked? <==> r.istate != map[]
    ensures r.outcome.Invoked? ==> r.istate == ReplyWith(FunctionCallResultEvent, r.outcome.result)
    ensures r.outcome.Invoked? ==> "name" in data && data["name"] in Registry.tools
    ensures !r.outcome.Invoked? ==> r.db == db
  {
    if "name" !in data then CallStep(db, Raised(NameMissing), map[])
    else if "arguments" !in data || env.parseJson(data["arguments"]).None? then CallStep(db, Raised(InvalidArguments), map[])
    else
      var name := data["name"];
      var args := env.parseJson(data["arguments"]).value;
      if name !in Registry.tools then CallStep(db, NotInvoked, map[])
      else
        match Invoke(env, db, name, args)
        case Err(e) => CallStep(db, Raised(e), map[])
        case Ok(result) => CallStep(result.0, Invoked(result.1), ReplyWith(FunctionCallResultEvent, result.1))
  }

  /** A get_tasks call with just a period runs get_tasks and replies its
      result, leaving the tasks alone. */
  lemma GetTasksCallReplies(env: ChannelEnv, db: seq<Row>, arguments: string, period: Json)
    requires env.parseJson(arguments) == Some(Obj([Field("period", period)]))
    ensures var result := GetTasksResult(env, db, period);
      HandleFunctionCall(env, db, map["name" := GetTasks, "arguments" := arguments])
        == CallStep(db, Invoked(result), ReplyWith(FunctionCallResultEvent, result))
  {
    var fs := [Field("period", period)];
    assert KeySet(fs) == {"period"} by { assert fs[0].key == "period"; }
    assert Lookup(fs, "period") == Some(period);
    assert GetTasks in Registry.tools;
  }

  /** A create_task call with just a deadline and a description runs
      create_task and replies its result, with the table it leaves. */
  lemma CreateTaskCallReplies(env: ChannelEnv, db: seq<Row>, arguments: string, deadline: Json, description: Json)
    requires env.parseJson(arguments) == Some(Obj([Field("deadline", deadline), Field("description", description)]))
    ensures var created := CreateTaskCall(env, db, deadline, description);
      HandleFunctionCall(env, db, map["name" := CreateTask, "arguments" := arguments])
        == CallStep(created.0, Invoked(created.1), ReplyWith(FunctionCallResultEvent, created.1))
  {
    var fs := [Field("deadline", deadline), Field("description", description)];
    assert KeySet(fs) == {"deadline", "description"} by {
      assert fs[0].key == "deadline" && fs[1].key == "description";
    }
    Lookup2(fs[0], fs[1]);
    assert CreateTask in Registry.tools;
  }

  /** A name outside the registry reaches no tool and leaves the tasks alone,
      even when it names another public method of the channel. */
  lemma UnregisteredNameIsIgnored(env: ChannelEnv, db: seq<Row>, args: string)
    requires env.parseJson(args).Some?
    ensures HandleFunctionCall(env, db, map["name" := "handle_dtmf", "arguments" := args]) == CallStep(db, NotInvoked, map[])
  {
    assert "handle_dtmf" !in Registry.tools;
  }

  /** Completing an existing valid task answers `completed` and stamps it;
      a missing id answers `failed` with "Task not found". */
  lemma CompleteTaskShapes(env: ChannelEnv, db: seq<Row>, id: int)
    requires forall x :: x in db ==> Present(x.description) && x.deadline.Some?
    ensures var r := CompleteTaskCall(env, db, Num(id));
      && r.Ok?
      && ((exists x :: x in db && x.id == id) <==> r.value.1 == StatusJson("completed"))
  {
    var r := CompleteTaskCall(env, db, Num(id));
    if exists x :: x in db && x.id == id {
      var row := FindTask(db, Num(id)).value;
      assert row in db;
    } else {
      assert Get(r.value.1, "status") == Some(Str("failed"));
      assert Get(StatusJson("completed"), "status") == Some(Str("completed"));
    }
  }

  // ---------------------------------------------------------------------------
  // Configuration

  /** `configure_openai`: nothing when realtime is off; otherwise the key, the
      session's voice, the prompt and the tool schema as JSON text (`null`
      when there are no tools). */
  function ConfigureOpenAI(realtimeEnabled: bool, apiKey: Option<string>, voice: Option<string>,
                           prompt: Option<string>, schema: Option<seq<ToolSpec>>): (r: Option<map<string, Json>>)
    ensures r.None? <==> !realtimeEnabled
    ensures r.Some? ==> r.value == ReplyWith(ConfigurationEvent, ConfigurationData(apiKey, voice, prompt, Render(SchemaJson(schema))))
    ensures r.Some? && schema.None? ==> r.value == ReplyWith(ConfigurationEvent, ConfigurationData(apiKey, voice, prompt, "null"))
  {
    if !realtimeEnabled then None
    else Some(ReplyWith(ConfigurationEvent, ConfigurationData(apiKey, voice, prompt, Render(SchemaJson(schema)))))
  }

  /** The configuration data: unset settings are null, the tools are text. */
  function ConfigurationData(apiKey: Option<string>, voice: Option<string>, prompt: Option<string>,
                             tools: string): (j: Json)
    ensures j.Obj? && |j.fields| == 4
    ensures Get(j, "api_key") == Some(SidJson(apiKey))
    ensures Get(j, "voice") == Some(SidJson(voice))
    ensures Get(j, "prompt") == Some(SidJson(prompt))
    ensures Get(j, "tools") == Some(Str(tools))
  {
    var fs := [Field("api_key", SidJson(apiKey)), Field("voice", SidJson(voice)),
               Field("prompt", SidJson(prompt)), Field("tools", Str(tools))];
    Lookup4(fs[0], fs[1], fs[2], fs[3]);
    Obj(fs)
  }
}

=== FILE: openai_tools.dfy ===
/** The tool registry of a channel class and the function specs it publishes
    to the realtime model: one spec per registered tool that has a parsed
    declaration, in registration order. */
module OpenAITools {
  import opened Base
  import opened Json
  import opened RbsTools

  /** The class-level state: the registered tool names and whether the schema
      instance variable has been assigned (the source only ever assigns it
      nil, for a class without tools). */
  datatype ToolClass = ToolClass(tools: seq<string>, schemaAssigned: bool)

  const NewToolClass := ToolClass([], false)

  /** `tool :name` appends to the registry. */
  function Tool(c: ToolClass, methodName: string): (r: ToolClass)
    ensures r.tools == c.tools + [methodName]
    ensures |r.tools| == |c.tools| + 1 && r.tools[|c.tools|] == methodName
    ensures r.schemaAssigned == c.schemaAssigned
  {
    c.(tools := c.tools + [methodName])
  }

  function RegisterAll(c: ToolClass, names: seq<string>): (r: ToolClass)
    ensures r.tools == c.tools + names
    ensures r.schemaAssigned == c.schemaAssigned
    decreases |names|
  {
    if names == [] then c else RegisterAll(Tool(c, names[0]), names[1..])
  }

  // ---------------------------------------------------------------------------
  // Property maps with Ruby Hash assignment semantics

  predicate UniqueKeys(ps: seq<Property>) {
    forall i, j :: 0 <= i < j < |ps| ==> ps[i].name != ps[j].name
  }

  /** The names of a list of named things, in order. */
  function NamesBy<T>(xs: seq<T>, name: T -> string): (r: seq<string>)
    ensures |r| == |xs|
    ensures forall i :: 0 <= i < |xs| ==> r[i] == name(xs[i])
  {
    if xs == [] then [] else [name(xs[0])] + NamesBy(xs[1..], name)
  }

  function Names(ps: seq<Property>): (r: seq<string>)
    ensures |r| == |ps|
    ensures forall i :: 0 <= i < |ps| ==> r[i] == ps[i].name
  {
    NamesBy(ps, PropertyName)
  }

  function PropertyName(p: Property): string {
    p.name
  }

  /** `h[k] = v`: an existing key keeps its place and takes the new value, a
      new key goes last. */
  function Put(ps: seq<Property>, p: Property): (r: seq<Property>)
    ensures p in r
    ensures forall q :: q in ps && q.name != p.name ==> q in r
    ensures forall q :: q in r ==> q == p || q in ps
  {
    if ps == [] then [p]
    else if ps[0].name == p.name then [p] + ps[1..]
    else [ps[0]] + Put(ps[1..], p)
  }

  /** The rest of a map with unique keys has unique keys, none of them the
      first one's. */
  lemma TailUnique(ps: seq<Property>)
    requires ps != [] && UniqueKeys(ps)
    ensures UniqueKeys(ps[1..])
    ensures forall q :: q in ps[1..] ==> q.name != ps[0].name
  {
    var tail := ps[1..];
    forall i, j | 0 <= i < j < |tail| ensures tail[i].name != tail[j].name {
      assert tail[i] == ps[i + 1] && tail[j] == ps[j + 1];
    }
    forall q | q in tail ensures q.name != ps[0].name {
      var k :| 0 <= k < |tail| && tail[k] == q;
      assert ps[k + 1] == q;
    }
  }

  /** A property whose key is new can go in front of a map with unique keys. */
  lemma ConsUnique(x: Property, rest: seq<Property>)
    requires UniqueKeys(rest)
    requires forall q :: q in rest ==> q.name != x.name
    ensures UniqueKeys([x] + rest)
  {
    var r := [x] + rest;
    forall i, j | 0 <= i < j < |r| ensures r[i].name != r[j].name {
      assert r[j] == rest[j - 1] && r[j] in rest;
      if i > 0 { assert r[i] == rest[i - 1]; }
    }
  }

  /** Assignment never duplicates a key. */
  lemma {:induction false} PutUnique(ps: seq<Property>, p: Property)
    ensures UniqueKeys(ps) ==> UniqueKeys(Put(ps, p))
  {
    if ps != [] && UniqueKeys(ps) {
      TailUnique(ps);
      if ps[0].name == p.name {
        ConsUnique(p, ps[1..]);
      } else {
        PutUnique(ps[1..], p);
        ConsUnique(ps[0], Put(ps[1..], p));
      }
    }
  }

  /** Some property carries `name`. */
  predicate NamedIn(name: string, ps: seq<Property>) {
    exists x :: x in ps && x.name == name
  }

  lemma PutKeepsNames(ps: seq<Property>, p: Property)
    ensures NamedIn(p.name, Put(ps, p))
    ensures forall n :: NamedIn(n, ps) ==> NamedIn(n, Put(ps, p))
  {
    var r := Put(ps, p);
    assert p in r;
    forall n | NamedIn(n, ps) ensures NamedIn(n, r) {
      var q :| q in ps && q.name == n;
      if q.name == p.name { assert p in r; } else { assert q in r; }
    }
  }

  function PutAll(ps: seq<Property>, qs: seq<Property>): (r: seq<Property>)
    ensures UniqueKeys(ps) ==> UniqueKeys(r)
    ensures forall q :: q in r ==> q in ps || q in qs
    ensures forall q :: q in qs ==> NamedIn(q.name, r)
    ensures forall n :: NamedIn(n, ps) ==> NamedIn(n, r)
    decreases |qs|
  {
    if qs == [] then ps
    else
      var next := Put(ps, qs[0]);
      PutKeepsNames(ps, qs[0]);
      PutUnique(ps, qs[0]);
      PutAll(next, qs[1..])
  }

  /** Assigning one property into an empty map gives just that property. */
  lemma PutAllOne(p: Property)
    ensures PutAll([], [p]) == [p]
  {
    assert Put([], p) == [p];
  }

  /** Assigning two differently named properties keeps them in order. */
  lemma PutAllTwo(p: Property, q: Property)
    requires p.name != q.name
    ensures PutAll([], [p, q]) == [p, q]
  {
    assert Put([p], q) == [p, q];
    assert PutAll([p], [q]) == [p, q];
    assert Put([], p) == [p];
    assert [p, q][1..] == [q];
  }

  // ---------------------------------------------------------------------------
  // Specs

  datatype ToolSpec = ToolSpec(
    name: string,
    description: Option<string>,
    properties: seq<Property>,
    required: seq<string>)

  /** The spec of one declared tool: required keywords listed as required,
      required then optional keywords assigned into the properties. */
  function SpecOf(name: string, d: MethodDecl): (r: ToolSpec)
    ensures r.name == name
    ensures r.description == Description(d)
    ensures r.required == Names(RequiredKeywords(d))
  {
    var req := RequiredKeywords(d);
    ToolSpec(name, Description(d), PutAll(PutAll([], req), OptionalKeywords(d)), Names(req))
  }

  /** A declaration with one required keyword and no optional ones publishes
      that keyword alone. */
  lemma SpecOfOne(name: string, d: MethodDecl, p: Property)
    requires RequiredKeywords(d) == [p] && d.optional == []
    ensures SpecOf(name, d).properties == [p] && SpecOf(name, d).required == [p.name]
  {
    PutAllOne(p);
  }

  /** A declaration with two differently named required keywords and no
      optional ones publishes both, in order. */
  lemma SpecOfTwo(name: string, d: MethodDecl, p: Property, q: Property)
    requires RequiredKeywords(d) == [p, q] && d.optional == [] && p.name != q.name
    ensures SpecOf(name, d).properties == [p, q] && SpecOf(name, d).required == [p.name, q.name]
  {
    PutAllTwo(p, q);
  }

  /** Every required name is a property; properties come only from the
      keywords; every optional keyword is present; names are unique. */
  lemma SpecOfProperties(name: string, d: MethodDecl)
    ensures var r := SpecOf(name, d);
      && (forall k :: k in r.required ==> NamedIn(k, r.properties))
      && (forall p :: p in r.properties ==> p in RequiredKeywords(d) || p in OptionalKeywords(d))
      && (forall p :: p in OptionalKeywords(d) ==> NamedIn(p.name, r.properties))
      && UniqueKeys(r.properties)
  {
    var req := RequiredKeywords(d);
    var r := SpecOf(name, d);
    forall k | k in Names(req) ensures NamedIn(k, r.properties) {
      var i :| 0 <= i < |req| && Names(req)[i] == k;
      assert req[i] in req;
    }
  }

  /** Reference definition: the registered names that have a declaration, in
      registration order. */
  function Declared(tools: seq<string>, decls: map<string, MethodDecl>): seq<string> {
    if tools == [] then []
    else (if tools[0] in decls then [tools[0]] else []) + Declared(tools[1..], decls)
  }

  lemma {:induction false} DeclaredSnoc(tools: seq<string>, t: string, decls: map<string, MethodDecl>)
    ensures Declared(tools + [t], decls) == Declared(tools, decls) + (if t in decls then [t] else [])
  {
    if tools != [] {
      assert (tools + [t])[1..] == tools[1..] + [t];
      DeclaredSnoc(tools[1..], t, decls);
    }
  }

  function SpecName(s: ToolSpec): string {
    s.name
  }

  lemma NamesBySnoc<T>(xs: seq<T>, x: T, name: T -> string)
    ensures NamesBy(xs + [x], name) == NamesBy(xs, name) + [name(x)]
  {
  }

  function Specs(tools: seq<string>, decls: map<string, MethodDecl>): (r: seq<ToolSpec>)
    ensures NamesBy(r, SpecName) == Declared(tools, decls)
    ensures forall sp :: sp in r ==> sp.name in decls && sp == SpecOf(sp.name, decls[sp.name])
  {
    if tools == [] then []
    else
      var init := tools[..|tools| - 1];
      var last := tools[|tools| - 1];
      var acc := Specs(init, decls);
      assert init + [last] == tools;
      DeclaredSnoc(init, last, decls);
      if last in decls then
        var spec := SpecOf(last, decls[last]);
        NamesBySnoc(acc, spec, SpecName);
        acc + [spec]
      else
        acc
  }

  /** Every registered, declared tool is published; nothing else is. */
  lemma {:induction false} DeclaredMembers(tools: seq<string>, decls: map<string, MethodDecl>)
    ensures forall t :: t in Declared(tools, decls) <==> t in tools && t in decls
  {
    if tools != [] {
      DeclaredMembers(tools[1..], decls);
      assert tools == [tools[0]] + tools[1..];
    }
  }

  // ---------------------------------------------------------------------------
  // The schema

  datatype RubyError = NoMethodOnNil

  /** `openai_tools_schema` as written. `sigs` is what the left-out signature
      reader returns: None when the class's source file or declaration is not
      found. The first call on a class without tools memoises nil; a class with
      tools recomputes its specs on every call, and reading from missing
      signatures calls a method on nil. */
  function Schema(c: ToolClass, sigs: Option<map<string, MethodDecl>>): (r: (ToolClass, Result<Option<seq<ToolSpec>>, RubyError>))
    ensures r.0.tools == c.tools
    ensures r.0.schemaAssigned <==> c.schemaAssigned || c.tools == []
    ensures r.1.Ok? && r.1.value.None? <==> c.schemaAssigned || c.tools == []
    ensures r.1.Err? <==> !c.schemaAssigned && c.tools != [] && sigs.None?
    ensures r.1.Ok? && r.1.value.Some? ==> NamesBy(r.1.value.value, SpecName) == Declared(c.tools, sigs.value)
    ensures r.1.Ok? && r.1.value.Some? ==> r.1.value.value == Specs(c.tools, sigs.value)
  {
    if c.schemaAssigned then (c, Ok(None))
    else if c.tools == [] then (c.(schemaAssigned := true), Ok(None))
    else
      match sigs
      case None => (c, Err(NoMethodOnNil))
      case Some(decls) => (c, Ok(Some(Specs(c.tools, decls))))
  }

  /** The schema with missing signatures giving nil, as the signature reader's
      own assignment of nil evidently intends. */
  function SchemaCorrected(c: ToolClass, sigs: Option<map<string, MethodDecl>>): (r: (ToolClass, Option<seq<ToolSpec>>))
    ensures r.0.tools == c.tools
    ensures r.1.None? <==> c.schemaAssigned || c.tools == [] || sigs.None?
    ensures r.1.Some? ==> NamesBy(r.1.value, SpecName) == Declared(c.tools, sigs.value)
    ensures r.1.Some? ==> r.1.value == Specs(c.tools, sigs.value)
    ensures sigs.Some? ==> Schema(c, sigs) == (r.0, Ok(r.1))
  {
    if c.schemaAssigned then (c, None)
    else if c.tools == [] then (c.(schemaAssigned := true), None)
    else
      match sigs
      case None => (c, None)
      case Some(decls) => (c, Some(Specs(c.tools, decls)))
  }

  /** A class whose registered tools have no readable signatures: the
      schema as written raises, the corrected one is nil. */
  lemma MissingSignaturesRaise()
    ensures Schema(Tool(NewToolClass, "get_tasks"), None).1 == Err(NoMethodOnNil)
    ensures SchemaCorrected(Tool(NewToolClass, "get_tasks"), None).1 == None
  {
  }

  /** The nil schema of a class without tools sticks: tools registered later
      are never published. */
  lemma NilSchemaIsMemoised(names: seq<string>, sigs: Option<map<string, MethodDecl>>)
    ensures var first := Schema(NewToolClass, sigs);
      && first.1 == Ok(None)
      && Schema(RegisterAll(first.0, names), sigs).1 == Ok(None)
  {
  }

  /** A class with tools gives the same specs on every call. */
  lemma SchemaStable(c: ToolClass, decls: map<string, MethodDecl>)
    requires c.tools != []
    ensures Schema(Schema(c, Some(decls)).0, Some(decls)) == Schema(c, Some(decls))
  {
  }

  // ---------------------------------------------------------------------------
  // JSON shape

  function PropertiesJson(ps: seq<Property>): (r: seq<Field>)
    ensures |r| == |ps|
    ensures forall i :: 0 <= i < |ps| ==> r[i].key == ps[i].name && r[i].value == ps[i].schema
  {
    if ps == [] then [] else [Field(ps[0].name, ps[0].schema)] + PropertiesJson(ps[1..])
  }

  function StrList(ss: seq<string>): (r: seq<Json>)
    ensures |r| == |ss| && forall i :: 0 <= i < |ss| ==> r[i] == Str(ss[i])
  {
    if ss == [] then [] else [Str(ss[0])] + StrList(ss[1..])
  }

  /** The JSON form of a spec: a function named after the method whose
      parameters are an object schema. */
  function SpecJson(s: ToolSpec): (r: Json)
    ensures Get(r, "type") == Some(Str("function"))
    ensures Get(r, "name") == Some(Str(s.name))
    ensures Get(r, "description") == Some(if s.description.Some? then Str(s.description.value) else Null)
    ensures Get(r, "parameters").Some? && Get(Get(r, "parameters").value, "type") == Some(Str("object"))
    ensures Get(Get(r, "parameters").value, "required") == Some(Arr(StrList(s.required)))
    ensures Get(Get(r, "parameters").value, "properties") == Some(Obj(PropertiesJson(s.properties)))
  {
    var pf := [Field("type", Str("object")), Field("properties", Obj(PropertiesJson(s.properties))),
               Field("required", Arr(StrList(s.required)))];
    var fs := [Field("type", Str("function")), Field("name", Str(s.name)),
               Field("description", if s.description.Some? then Str(s.description.value) else Null),
               Field("parameters", Obj(pf))];
    Lookup3(pf[0], pf[1], pf[2]);
    Lookup4(fs[0], fs[1], fs[2], fs[3]);
    Obj(fs)
  }

  function SchemaJson(specs: Option<seq<ToolSpec>>): (r: Json)
    ensures specs.None? <==> r.Null?
    ensures specs.Some? ==> r.Arr? && |r.items| == |specs.value|
    ensures specs.Some? ==> forall i :: 0 <= i < |specs.value| ==> r.items[i] == SpecJson(specs.value[i])
  {
    match specs
    case None => Null
    case Some(ss) => Arr(seq(|ss|, i requires 0 <= i < |ss| => SpecJson(ss[i])))
  }
}

=== FILE: rbs_tools.dfy ===
/** Reading tool signatures written as inline RBS comments: the mapping from an
    RBS type to a JSON-Schema property, the method description taken from its
    comment, and the keyword maps of a method's first overload. */
module RbsTools {
  import opened Base
  import opened Json
  import Text

  // ---------------------------------------------------------------------------
  // RBS types

  /** A literal inside an RBS union such as `(:today | :tomorrow | :week)`. */
  datatype Literal = LSym(sym: string) | LStr(str: string) | LInt(i: int) | LBool(b: bool)

  datatype NameKind = ClassKind | InterfaceKind | AliasKind

  /** The part of an RBS type the schema mapping looks at. */
  datatype RbsType =
    | Union(literals: seq<Literal>)
    | ClassInstance(kind: NameKind, name: string)
    | Other

  /** How Ruby's JSON generator writes a literal: a symbol as its name. */
  function LiteralJson(l: Literal): (r: Json)
    ensures l.LSym? ==> r == Str(l.sym)
    ensures l.LStr? ==> r == Str(l.str)
    ensures l.LInt? ==> r == Num(l.i)
    ensures l.LBool? ==> r == Bool(l.b)
  {
    match l
    case LSym(s) => Str(s)
    case LStr(s) => Str(s)
    case LInt(i) => Num(i)
    case LBool(b) => Bool(b)
  }

  function EnumJson(ls: seq<Literal>): (r: seq<Json>)
    ensures |r| == |ls|
    ensures forall i :: 0 <= i < |ls| ==> r[i] == LiteralJson(ls[i])
  {
    if ls == [] then [] else [LiteralJson(ls[0])] + EnumJson(ls[1..])
  }

  predicate IsNumeric(l: Literal) {
    l.LInt?
  }

  /** The JSON-Schema property for an RBS type. A union always becomes a string
      enum, even of numbers: the number/string choice the source computes is
      never used. */
  function PropertyTypeFromRbs(t: RbsType): (r: Json)
    ensures r.Obj?
    ensures Get(r, "type") == Some(Str(if t == ClassInstance(ClassKind, "Integer") then "integer" else "string"))
    ensures Get(r, "enum").Some? <==> t.Union?
    ensures t.Union? ==> Get(r, "enum") == Some(Arr(EnumJson(t.literals)))
    ensures Get(r, "format").Some? <==> t == ClassInstance(ClassKind, "Date")
    ensures Get(r, "format").Some? ==> Get(r, "format") == Some(Str("date"))
    ensures |r.fields| <= 2
  {
    match t
    case Union(ls) => Obj([Field("type", Str("string")), Field("enum", Arr(EnumJson(ls)))])
    case ClassInstance(kind, name) =>
      if kind == ClassKind && name == "Date" then Obj([Field("type", Str("string")), Field("format", Str("date"))])
      else if kind == ClassKind && name == "Integer" then Obj([Field("type", Str("integer"))])
      else Obj([Field("type", Str("string"))])
    case Other => Obj([Field("type", Str("string"))])
  }

  /** A union of integers is still declared a string enum. */
  lemma NumericUnionIsStringEnum(ls: seq<Literal>)
    requires |ls| > 0 && IsNumeric(ls[0])
    ensures Get(PropertyTypeFromRbs(Union(ls)), "type") == Some(Str("string"))
    ensures Get(PropertyTypeFromRbs(Union(ls)), "enum") == Some(Arr(EnumJson(ls)))
    ensures Arr(EnumJson(ls)).items[0] == Num(ls[0].i)
  {
  }

  // ---------------------------------------------------------------------------
  // Method declarations

  datatype Keyword = Keyword(name: string, rbsType: RbsType)

  /** A method definition as the inline-RBS parser gives it: its doc comment
      and the keywords of its first overload. */
  datatype MethodDecl = MethodDecl(comment: Option<string>, required: seq<Keyword>, optional: seq<Keyword>)

  datatype Property = Property(name: string, schema: Json)

  /** A line of the comment that an `@rbs` annotation occupies is blanked. */
  function BlankRbs(line: string): (r: string)
    ensures r == "" || r == line
    ensures !Text.StartsWith(r, "@rbs")
    ensures !Text.StartsWith(line, "@rbs") ==> r == line
  {
    if Text.StartsWith(line, "@rbs") then "" else line
  }

  function BlankAll(lines: seq<string>): (r: seq<string>)
    ensures |r| == |lines|
    ensures forall i :: 0 <= i < |lines| ==> r[i] == BlankRbs(lines[i])
  {
    if lines == [] then [] else [BlankRbs(lines[0])] + BlankAll(lines[1..])
  }

  /** The comment with every line that begins with `@rbs` emptied; the line
      structure is kept. */
  function StripRbs(comment: string): (r: string)
    ensures |Text.SplitLines(r)| == |Text.SplitLines(comment)|
    ensures forall i :: 0 <= i < |Text.SplitLines(r)| ==>
              Text.SplitLines(r)[i] == BlankRbs(Text.SplitLines(comment)[i])
  {
    var lines := Text.SplitLines(comment);
    var blanked := BlankAll(lines);
    assert forall i :: 0 <= i < |blanked| ==> '\n' !in blanked[i] by {
      forall i | 0 <= i < |blanked| ensures '\n' !in blanked[i] {
        assert blanked[i] == "" || blanked[i] == lines[i];
      }
    }
    Text.SplitJoinLines(blanked);
    Text.Join(blanked, "\n")
  }

  /** A comment without annotations passes through untouched. */
  lemma StripRbsPlain(comment: string)
    requires forall i :: 0 <= i < |Text.SplitLines(comment)| ==> !Text.StartsWith(Text.SplitLines(comment)[i], "@rbs")
    ensures StripRbs(comment) == comment
  {
    var lines := Text.SplitLines(comment);
    assert BlankAll(lines) == lines;
    Text.JoinSplitLines(comment);
  }

  /** The method description: the comment without annotation lines and with
      one trailing line break removed; no comment gives no description. */
  function Description(d: MethodDecl): (r: Option<string>)
    ensures r.None? <==> d.comment.None?
    ensures r.Some? ==> r.value == Text.Chomp(StripRbs(d.comment.value))
  {
    match d.comment
    case None => None
    case Some(c) => Some(Text.Chomp(StripRbs(c)))
  }

  /** A one-line comment followed by its signature line describes the method
      by that one line. */
  lemma DescriptionOfSignedComment(text: string, sig: string)
    requires '\n' !in text && !Text.StartsWith(text, "@rbs")
    requires text == [] || text[|text| - 1] != '\r'
    requires '\n' !in sig
    ensures Description(MethodDecl(Some(text + "\n@rbs" + sig), [], [])) == Some(text)
  {
    var c := text + "\n@rbs" + sig;
    assert c == text + "\n" + ("@rbs" + sig);
    Text.SplitLinesSingle("@rbs" + sig);
    Text.SplitLinesCons(text, "@rbs" + sig);
    assert Text.SplitLines(c) == [text, "@rbs" + sig];
    assert Text.StartsWith("@rbs" + sig, "@rbs");
    var s := StripRbs(c);
    Text.JoinSplitLines(s);
    assert Text.SplitLines(s) == [text, ""];
    assert s == text + "\n";
    Text.ChompNewline(text);
  }

  /** One keyword as a schema property: its name and the property type of its
      RBS type. */
  function PropertyOf(k: Keyword): Property {
    Property(k.name, PropertyTypeFromRbs(k.rbsType))
  }

  /** The keyword map with each RBS type replaced by its schema property. */
  function KeywordProperties(kws: seq<Keyword>): (r: seq<Property>)
    ensures |r| == |kws|
    ensures forall i :: 0 <= i < |kws| ==> r[i] == PropertyOf(kws[i])
  {
    if kws == [] then [] else [PropertyOf(kws[0])] + KeywordProperties(kws[1..])
  }

  /** Two keywords become their two properties, in order. */
  lemma KeywordPropertiesTwo(a: Keyword, b: Keyword)
    ensures KeywordProperties([a, b]) == [PropertyOf(a), PropertyOf(b)]
  {
    assert [a, b][1..] == [b];
  }

  function RequiredKeywords(d: MethodDecl): (r: seq<Property>)
    ensures |r| == |d.required|
    ensures forall i :: 0 <= i < |r| ==> r[i].name == d.required[i].name && r[i].schema == PropertyTypeFromRbs(d.required[i].rbsType)
  {
    KeywordProperties(d.required)
  }

  function OptionalKeywords(d: MethodDecl): (r: seq<Property>)
    ensures |r| == |d.optional|
    ensures forall i :: 0 <= i < |r| ==> r[i].name == d.optional[i].name && r[i].schema == PropertyTypeFromRbs(d.optional[i].rbsType)
  {
    KeywordProperties(d.optional)
  }
}

=== FILE: rpc_bridge.dfy ===
/** The two halves of the call meeting: what the Rails channel writes into
    the channel state or transmits, read back by the Go executor and its
    decoders. */
module RpcBridge {
  import opened Base
  import opened Json
  import E = Executor
  import C = MediaStreamChannel
  import Frames
  import Agent
  import AgentConfig
  import OpenAITools
  import Todos

  /** The reply mailbox: a slot written by `reply_with` is read once by the
      executor, as the event with its data, and removed from the state. */
  lemma ReplyWithReachesExecutor(env: E.Env, s: E.Session, action: string, data: map<string, string>,
                                 event: string, payload: Json)
    requires env.port.perform(data["action" := action]) == E.Replied(C.ReplyWith(event, payload))
    ensures var r := E.PerformRPC(env, s, action, data);
      && r.result == Ok(Some(E.AppResponse(event, Some(payload))))
      && E.ChannelId(s) in r.session.channels
      && E.ResponseState !in r.session.channels[E.ChannelId(s)]
  {
    var istate := C.ReplyWith(event, payload);
    var j := istate[C.ResponseState];
    assert GoString(j.fields, "event") == Ok(event);
    assert E.DecodeAppResponse(j) == Ok(E.AppResponse(event, Some(payload)));
  }

  /** The configuration the channel sends becomes the agent's configuration:
      its key and prompt, its voice unless empty, the default model (the
      channel sends none) and, always, the schema text as the tools. */
  lemma ConfigurationReachesAgent(env: E.Env, s: E.Session, apiKey: string, voice: string, prompt: string,
                                  schema: Option<seq<OpenAITools.ToolSpec>>)
    requires env.dialSucceeds
    requires env.port.perform(map["action" := "configure_openai"])
             == E.Replied(C.ConfigureOpenAI(true, Some(apiKey), Some(voice), Some(prompt), schema).value)
    ensures var r := E.InitAgent(env, s);
      && r.outcome == E.Done
      && r.session.internal.agent.Some?
      && var conf := r.session.internal.agent.value.conf;
         && conf.key == apiKey
         && conf.model == AgentConfig.DefaultModel
         && conf.voice == (if voice == "" then AgentConfig.DefaultVoice else voice)
         && conf.prompt == prompt
         && conf.tools == AgentConfig.RawTools(Render(OpenAITools.SchemaJson(schema)))
  {
    var tools := Render(OpenAITools.SchemaJson(schema));
    var data := C.ConfigurationData(Some(apiKey), Some(voice), Some(prompt), tools);
    ReplyWithReachesExecutor(env, s, "configure_openai", map[], C.ConfigurationEvent, data);
    assert map[]["action" := "configure_openai"] == map["action" := "configure_openai"];
    ConfigurationDecodes(apiKey, voice, prompt, tools);
  }

  /** The executor decodes the channel's configuration data member by member;
      the absent model decodes as empty. */
  lemma ConfigurationDecodes(apiKey: string, voice: string, prompt: string, tools: string)
    ensures E.DecodeConfigData(Some(C.ConfigurationData(Some(apiKey), Some(voice), Some(prompt), tools)))
            == Ok(E.OpenAIConfigData(apiKey, "", voice, prompt, tools))
  {
    var fs := C.ConfigurationData(Some(apiKey), Some(voice), Some(prompt), tools).fields;
    ModelAbsent(apiKey, voice, prompt, tools);
    GoStringFound(fs, "api_key", apiKey);
    GoStringAbsent(fs, "model");
    GoStringFound(fs, "voice", voice);
    GoStringFound(fs, "prompt", prompt);
    GoStringFound(fs, "tools", tools);
    DecodeFromMembers(fs, E.OpenAIConfigData(apiKey, "", voice, prompt, tools));
  }

  /** The channel sends no model member. */
  lemma ModelAbsent(apiKey: string, voice: string, prompt: string, tools: string)
    ensures Lookup(C.ConfigurationData(Some(apiKey), Some(voice), Some(prompt), tools).fields, "model") == None
  {
    LookupAbsent4(Field("api_key", Str(apiKey)), Field("voice", Str(voice)), Field("prompt", Str(prompt)),
                  Field("tools", Str(tools)), "model");
  }

  /** Configuration members that decode one by one decode as the whole. */
  lemma DecodeFromMembers(fs: seq<Field>, d: E.OpenAIConfigData)
    requires GoString(fs, "api_key") == Ok(d.apiKey) && GoString(fs, "model") == Ok(d.model)
    requires GoString(fs, "voice") == Ok(d.voice) && GoString(fs, "prompt") == Ok(d.prompt)
    requires GoString(fs, "tools") == Ok(d.tools)
    ensures E.DecodeConfigData(Some(Obj(fs))) == Ok(d)
  {
  }

  /** A function-call result the channel replies with reaches the agent under
      the call id the executor kept back. */
  lemma ResultReplyReachesAgent(env: E.Env, s: E.Session, name: string, arguments: string, callId: string,
                                result: Json)
    requires env.port.perform(map["name" := name, "arguments" := arguments, "action" := "handle_function_call"])
             == E.Replied(C.ReplyWith(C.FunctionCallResultEvent, result))
    ensures E.OnFunctionCall(env, s, name, arguments, callId).effects
            == [E.Perform(E.ChannelId(s), map["name" := name, "arguments" := arguments, "action" := "handle_function_call"]),
                E.FunctionCallResult(callId, Some(result))]
  {
    assert map["name" := name, "arguments" := arguments]["action" := "handle_function_call"]
           == map["name" := name, "arguments" := arguments, "action" := "handle_function_call"];
    ReplyWithReachesExecutor(env, s, "handle_function_call", map["name" := name, "arguments" := arguments],
                             C.FunctionCallResultEvent, result);
  }

  /** A tool the channel runs has its result handed to the agent. */
  lemma FunctionResultReachesAgent(env: E.Env, s: E.Session, cenv: C.ChannelEnv, db: seq<Todos.Row>,
                                   name: string, arguments: string, callId: string)
    requires var sent := map["name" := name, "arguments" := arguments, "action" := "handle_function_call"];
      && C.HandleFunctionCall(cenv, db, sent).outcome.Invoked?
      && env.port.perform(sent) == E.Replied(C.HandleFunctionCall(cenv, db, sent).istate)
    ensures var sent := map["name" := name, "arguments" := arguments, "action" := "handle_function_call"];
      E.OnFunctionCall(env, s, name, arguments, callId).effects
        == [E.Perform(E.ChannelId(s), sent),
            E.FunctionCallResult(callId, Some(C.HandleFunctionCall(cenv, db, sent).outcome.result))]
  {
    var sent := map["name" := name, "arguments" := arguments, "action" := "handle_function_call"];
    ResultReplyReachesAgent(env, s, name, arguments, callId, C.HandleFunctionCall(cenv, db, sent).outcome.result);
  }

  /** A call the channel declines leaves the slot empty, and the agent hears
      nothing back. */
  lemma DeclinedCallGivesNoResult(env: E.Env, s: E.Session, cenv: C.ChannelEnv, db: seq<Todos.Row>,
                                  name: string, arguments: string, callId: string)
    requires var sent := map["name" := name, "arguments" := arguments, "action" := "handle_function_call"];
      && !C.HandleFunctionCall(cenv, db, sent).outcome.Invoked?
      && env.port.perform(sent) == E.Replied(C.HandleFunctionCall(cenv, db, sent).istate)
    ensures var sent := map["name" := name, "arguments" := arguments, "action" := "handle_function_call"];
      E.OnFunctionCall(env, s, name, arguments, callId).effects == [E.Perform(E.ChannelId(s), sent)]
  {
    var sent := map["name" := name, "arguments" := arguments, "action" := "handle_function_call"];
    assert map["name" := name, "arguments" := arguments]["action" := "handle_function_call"] == sent;
  }

  /** The media frame the channel transmits is, to the Go decoder, a media
      message for the stream with the spoken audio and no track, exactly the
      payload shape the executor's own audio callback sends; the mark frame
      that follows decodes to the mark name. */
  lemma TransmitDecodesAsFrames(sid: string, id: string, payload: string)
    requires sid != ""
    ensures var r := C.TransmitMessage(Some(sid), id, payload);
      && Frames.MediaMessageFromJson(r[0])
         == Ok(Frames.MediaMessage(Frames.MediaEvent, sid, 0, Frames.MediaPayload(payload, "")))
      && Frames.MarkMessageFromJson(r[1])
         == Ok(Frames.MarkMessage(Frames.MarkEvent, sid, 0, Frames.MarkPayload(id)))
  {
    var r := C.TransmitMessage(Some(sid), id, payload);
    MediaFrameDecodes(sid, payload, r[0]);
    MarkFrameDecodes(sid, id, r[1]);
  }

  lemma MediaFrameDecodes(sid: string, payload: string, frame: Json)
    requires sid != ""
    requires frame == Obj([Field("event", Str("media")), Field("streamSid", Str(sid)),
                           Field("media", Obj([Field("payload", Str(payload))]))])
    ensures Frames.MediaMessageFromJson(frame)
            == Ok(Frames.MediaMessage(Frames.MediaEvent, sid, 0, Frames.MediaPayload(payload, "")))
  {
    var body := [Field("payload", Str(payload))];
    assert frame == Obj(Frames.EnvelopeFields("media", sid, 0, true, "media", Obj(body)));
    Frames.EnvelopeRoundTrip("media", sid, 0, true, "media", body);
    assert Frames.MediaPayloadFromFields(body) == Ok(Frames.MediaPayload(payload, ""));
  }

  lemma MarkFrameDecodes(sid: string, id: string, frame: Json)
    requires sid != ""
    requires frame == Obj([Field("event", Str("mark")), Field("streamSid", Str(sid)),
                           Field("mark", Obj([Field("name", Str(id))]))])
    ensures Frames.MarkMessageFromJson(frame) == Ok(Frames.MarkMessage(Frames.MarkEvent, sid, 0, Frames.MarkPayload(id)))
  {
    var body := [Field("name", Str(id))];
    assert frame == Obj(Frames.EnvelopeFields("mark", sid, 0, true, "mark", Obj(body)));
    Frames.EnvelopeRoundTrip("mark", sid, 0, true, "mark", body);
    assert Frames.MarkPayloadFromFields(body) == Ok(Frames.MarkPayload(id));
  }
}

=== FILE: text.dfy ===
/** String helpers with the semantics of the Ruby and Go standard library
    calls the modelled code relies on: Array#join, String#to_i, String#chomp,
    Integer#to_s and line-oriented regular-expression replacement. */
module Text {

  predicate StartsWith(s: string, prefix: string) {
    |prefix| <= |s| && s[..|prefix|] == prefix
  }

  /** Array#join: the parts separated by `sep`, nothing around them. */
  function Join(parts: seq<string>, sep: string): (r: string)
    ensures |parts| == 1 ==> r == parts[0]
    ensures |parts| == 0 ==> r == ""
  {
    if |parts| == 0 then ""
    else if |parts| == 1 then parts[0]
    else parts[0] + sep + Join(parts[1..], sep)
  }

  // ---------------------------------------------------------------------------
  // Lines

  /** Splits at every newline, keeping empty pieces (including a trailing one),
      so that the pieces are exactly the lines a `^...$` regular expression sees. */
  function SplitLines(s: string): (r: seq<string>)
    ensures |r| >= 1
    ensures forall i :: 0 <= i < |r| ==> '\n' !in r[i]
  {
    if s == [] then [""]
    else
      var rest := SplitLines(s[1..]);
      if s[0] == '\n' then [""] + rest
      else [[s[0]] + rest[0]] + rest[1..]
  }

  lemma {:induction false} JoinSplitLines(s: string)
    ensures Join(SplitLines(s), "\n") == s
  {
    if s != [] {
      var rest := SplitLines(s[1..]);
      JoinSplitLines(s[1..]);
      if s[0] == '\n' {
        assert SplitLines(s) == [""] + rest;
        assert ([""] + rest)[1..] == rest;
      } else {
        var r := [[s[0]] + rest[0]] + rest[1..];
        assert SplitLines(s) == r;
        if |rest| == 1 {
          assert Join(r, "\n") == [s[0]] + rest[0];
        } else {
          assert r[1..] == rest[1..];
          assert Join(r, "\n") == [s[0]] + rest[0] + "\n" + Join(rest[1..], "\n");
        }
        assert s == [s[0]] + s[1..];
      }
    }
  }

  lemma {:induction false} SplitLinesSingle(a: string)
    requires '\n' !in a
    ensures SplitLines(a) == [a]
  {
    if a != [] {
      SplitLinesSingle(a[1..]);
      assert [a[0]] + a[1..] == a;
    }
  }

  lemma {:induction false} SplitLinesCons(a: string, b: string)
    requires '\n' !in a
    ensures SplitLines(a + "\n" + b) == [a] + SplitLines(b)
  {
    var s := a + "\n" + b;
    if a == [] {
      assert s[0] == '\n' && s[1..] == b;
    } else {
      assert s[0] == a[0];
      assert s[1..] == a[1..] + "\n" + b;
      SplitLinesCons(a[1..], b);
      assert [a[0]] + a[1..] == a;
    }
  }

  /** Joining lines that hold no newline and splitting again gives them back. */
  lemma {:induction false} SplitJoinLines(ls: seq<string>)
    requires |ls| >= 1
    requires forall i :: 0 <= i < |ls| ==> '\n' !in ls[i]
    ensures SplitLines(Join(ls, "\n")) == ls
  {
    if |ls| == 1 {
      SplitLinesSingle(ls[0]);
    } else {
      SplitJoinLines(ls[1..]);
      SplitLinesCons(ls[0], Join(ls[1..], "\n"));
      assert [ls[0]] + ls[1..] == ls;
    }
  }

  /** String#chomp with no argument: drops one trailing "\r\n", "\n" or "\r". */
  function Chomp(s: string): (r: string)
    ensures r <= s && |s| - 2 <= |r|
    ensures r == s <==> (s == [] || (s[|s| - 1] != '\n' && s[|s| - 1] != '\r'))
    ensures |s| >= 2 && s[|s| - 2..] == "\r\n" ==> r == s[..|s| - 2]
    ensures |s| >= 1 && s[|s| - 1] == '\r' ==> r == s[..|s| - 1]
    ensures |s| >= 1 && s[|s| - 1] == '\n' && (|s| == 1 || s[|s| - 2] != '\r') ==> r == s[..|s| - 1]
  {
    if |s| >= 2 && s[|s| - 2..] == "\r\n" then s[..|s| - 2]
    else if |s| >= 1 && (s[|s| - 1] == '\n' || s[|s| - 1] == '\r') then s[..|s| - 1]
    else s
  }

  /** Chomp undoes appending one newline to a string not ending in "\r". */
  lemma ChompNewline(s: string)
    requires s == [] || s[|s| - 1] != '\r'
    ensures Chomp(s + "\n") == s
  {
    var t := s + "\n";
    assert t[..|t| - 1] == s;
    if |t| >= 2 {
      assert t[|t| - 2] == s[|s| - 1];
    }
  }

  // ---------------------------------------------------------------------------
  // Integers

  predicate IsDigit(c: char) { '0' <= c <= '9' }

  predicate AllDigits(s: string) {
    forall i :: 0 <= i < |s| ==> IsDigit(s[i])
  }

  function DigitChar(d: nat): (c: char)
    requires d < 10
    ensures IsDigit(c) && (c as int) - ('0' as int) == d
  {
    ('0' as int + d) as char
  }

  /** Decimal digits of a natural number, most significant first (Integer#to_s). */
  function NatToString(n: nat): (r: string)
    ensures |r| >= 1 && AllDigits(r)
  {
    if n < 10 then [DigitChar(n)] else NatToString(n / 10) + [DigitChar(n % 10)]
  }

  function IntToString(i: int): (r: string)
    ensures |r| >= 1
  {
    if i < 0 then "-" + NatToString(-i) else NatToString(i)
  }

  /** The longest prefix of digits. */
  function DigitPrefix(s: string): (r: string)
    ensures r <= s && AllDigits(r)
    ensures |r| < |s| ==> !IsDigit(s[|r|])
  {
    if s != [] && IsDigit(s[0]) then [s[0]] + DigitPrefix(s[1..]) else []
  }

  function DigitsValue(ds: string): nat
    requires AllDigits(ds)
  {
    if ds == [] then 0
    else DigitsValue(ds[..|ds| - 1]) * 10 + ((ds[|ds| - 1] as int) - ('0' as int))
  }

  predicate IsRubySpace(c: char) {
    c == ' ' || c == '\t' || c == '\n' || c == '\U{0B}' || c == '\U{0C}' || c == '\r'
  }

  function SkipSpace(s: string): (r: string)
    ensures |r| <= |s| && r == s[|s| - |r|..]
    ensures r == [] || !IsRubySpace(r[0])
  {
    if s != [] && IsRubySpace(s[0]) then SkipSpace(s[1..]) else s
  }

  /** String#to_i: optional leading whitespace and sign, then the longest run of
      decimal digits; anything that does not start that way reads as 0. */
  function ToI(s: string): int {
    var t := SkipSpace(s);
    if t != [] && t[0] == '-' then 0 - DigitsValue(DigitPrefix(t[1..]))
    else if t != [] && t[0] == '+' then DigitsValue(DigitPrefix(t[1..]))
    else DigitsValue(DigitPrefix(t))
  }

  /** A string that starts with neither space, sign nor digit reads as 0. */
  lemma ToINonNumeric(s: string)
    requires s != [] && !IsRubySpace(s[0]) && !IsDigit(s[0]) && s[0] != '-' && s[0] != '+'
    ensures ToI(s) == 0
  {
    assert SkipSpace(s) == s;
    assert DigitPrefix(s) == [];
  }

  lemma {:induction false} DigitPrefixAll(s: string)
    requires AllDigits(s)
    ensures DigitPrefix(s) == s
  {
    if s != [] {
      DigitPrefixAll(s[1..]);
    }
  }

  lemma {:induction false} DigitsValueNat(n: nat)
    ensures DigitsValue(NatToString(n)) == n
  {
    if n >= 10 {
      DigitsValueNat(n / 10);
      var s := NatToString(n);
      assert s[..|s| - 1] == NatToString(n / 10);
    }
  }

  lemma {:induction false} ToIOfNatToString(n: nat)
    ensures ToI(NatToString(n)) == n
  {
    var digits := NatToString(n);
    DigitPrefixAll(digits);
    DigitsValueNat(n);
    assert SkipSpace(digits) == digits by {
      assert IsDigit(digits[0]);
    }
  }

  /** String#to_i reads back what Integer#to_s prints. */
  lemma {:induction false} ToIOfIntToString(i: int)
    ensures ToI(IntToString(i)) == i
  {
    if i < 0 {
      var digits := NatToString(-i);
      var t := "-" + digits;
      assert SkipSpace(t) == t;
      assert t[1..] == digits;
      DigitPrefixAll(digits);
      DigitsValueNat(-i);
    } else {
      ToIOfNatToString(i);
    }
  }
}

=== FILE: todo.dfy ===
/** The Todo record: presence validation, the `completed` flag kept in step
    with the `completed_at` column, and the named scopes over the table.
    Dates are day numbers counted from 1970-01-01 and times are seconds; the
    table is a sequence of rows. */
module Todos {
  import opened Base
  import Text

  /** A stored row. */
  datatype Row = Row(id: int, description: Option<string>, deadline: Option<int>, completedAt: Option<int>)

  /** A loaded or built record: the row's columns and the virtual flag. */
  datatype Todo = Todo(id: int, description: Option<string>, deadline: Option<int>, completedAt: Option<int>, completed: bool)

  const DescriptionBlank := "Description can't be blank"
  const DeadlineBlank := "Deadline can't be blank"

  /** `present?` of a string attribute: set and not only white space. */
  predicate Present(s: Option<string>) {
    s.Some? && exists i :: 0 <= i < |s.value| && !Text.IsRubySpace(s.value[i])
  }

  /** The full error messages of `validates :description, :deadline, presence: true`,
      in attribute order. */
  function Errors(t: Todo): (r: seq<string>)
    ensures r == [] <==> Present(t.description) && t.deadline.Some?
    ensures DescriptionBlank in r <==> !Present(t.description)
    ensures DeadlineBlank in r <==> t.deadline.None?
    ensures |r| <= 2
  {
    (if Present(t.description) then [] else [DescriptionBlank])
      + (if t.deadline.Some? then [] else [DeadlineBlank])
  }

  /** The before-validation hook: the timestamp follows the flag. */
  function BeforeValidation(t: Todo, now: int): (r: Todo)
    ensures r.completedAt.Some? <==> r.completed
    ensures r.completed == t.completed
    ensures r.completed ==> r.completedAt == Some(now)
    ensures r.id == t.id && r.description == t.description && r.deadline == t.deadline
  {
    t.(completedAt := if t.completed then Some(now) else None)
  }

  /** Validation as `save` runs it: the hook, then the presence checks. */
  function Validate(t: Todo, now: int): (r: Result<Todo, seq<string>>)
    ensures r.Ok? ==> r.value == BeforeValidation(t, now) && Errors(r.value) == []
    ensures r.Err? ==> r.error == Errors(t) && r.error != []
    ensures r.Err? <==> !Present(t.description) || t.deadline.None?
  {
    var u := BeforeValidation(t, now);
    var errs := Errors(u);
    if errs == [] then Ok(u) else Err(errs)
  }

  function Store(t: Todo): Row {
    Row(t.id, t.description, t.deadline, t.completedAt)
  }

  /** The after-initialize hook: the flag follows the timestamp. */
  function Load(row: Row): (t: Todo)
    ensures t.completed <==> row.completedAt.Some?
    ensures Store(t) == row
  {
    Todo(row.id, row.description, row.deadline, row.completedAt, row.completedAt.Some?)
  }

  /** What validation saves is read back unchanged, flag included. */
  lemma LoadAfterValidate(t: Todo, now: int)
    requires Validate(t, now).Ok?
    ensures Load(Store(Validate(t, now).value)) == Validate(t, now).value
    ensures Load(Store(Validate(t, now).value)).completed == t.completed
  {
  }

  /** Validating twice at the same moment changes nothing more. */
  lemma ValidateIdempotent(t: Todo, now: int)
    requires Validate(t, now).Ok?
    ensures Validate(Validate(t, now).value, now) == Validate(t, now)
  {
  }

  // ---------------------------------------------------------------------------
  // Scopes

  /** Which rows a scope's WHERE clause keeps. `IncompleteDue` is the
      incomplete rows whose deadline lies in a closed day range, or whose
      deadline is null when there is no range. */
  datatype Where =
    | CompletedRows
    | IncompleteRows
    | CurrentRows(today: int)
    | StaleRows(today: int)
    | ArchiveRows(today: int)
    | IncompleteDue(range: Option<(int, int)>)
    | IncompleteDated

  predicate Keeps(w: Where, r: Row) {
    match w
    case CompletedRows => r.completedAt.Some?
    case IncompleteRows => r.completedAt.None?
    case CurrentRows(today) => r.completedAt.None? && r.deadline.Some? && r.deadline.value >= today
    case StaleRows(today) => r.completedAt.None? && r.deadline.Some? && r.deadline.value <= today - 1
    case ArchiveRows(today) => r.completedAt.Some? && r.deadline.Some? && r.deadline.value >= today - 7
    case IncompleteDue(range) =>
      r.completedAt.None? &&
      (match range
       case None => r.deadline.None?
       case Some(bounds) => r.deadline.Some? && bounds.0 <= r.deadline.value <= bounds.1)
    case IncompleteDated => r.completedAt.None? && r.deadline.Some?
  }

  /** The rows a WHERE clause keeps, in table order. */
  function Filter(db: seq<Row>, w: Where): (r: seq<Row>)
    ensures forall x :: x in r ==> x in db && Keeps(w, x)
    ensures forall x :: x in db && Keeps(w, x) ==> x in r
    ensures |r| <= |db|
  {
    if db == [] then []
    else (if Keeps(w, db[0]) then [db[0]] else []) + Filter(db[1..], w)
  }

  /** `completed` and `incomplete` split the table: every row lands in exactly
      one of them, as many times as it occurs. */
  lemma {:induction false} CompletedIncompletePartition(db: seq<Row>)
    ensures multiset(Filter(db, CompletedRows)) + multiset(Filter(db, IncompleteRows)) == multiset(db)
  {
    if db != [] {
      var rest := db[1..];
      CompletedIncompletePartition(rest);
      assert db == [db[0]] + rest;
      assert multiset(db) == multiset{db[0]} + multiset(rest);
      if db[0].completedAt.Some? {
        assert Filter(db, CompletedRows) == [db[0]] + Filter(rest, CompletedRows);
        assert Filter(db, IncompleteRows) == Filter(rest, IncompleteRows);
      } else {
        assert Filter(db, CompletedRows) == Filter(rest, CompletedRows);
        assert Filter(db, IncompleteRows) == [db[0]] + Filter(rest, IncompleteRows);
      }
    }
  }

  /** `current` and `stale` split the incomplete rows that have a deadline:
      a deadline is either on or after today or on or before yesterday. */
  lemma {:induction false} CurrentStalePartition(db: seq<Row>, today: int)
    ensures multiset(Filter(db, CurrentRows(today))) + multiset(Filter(db, StaleRows(today)))
         == multiset(Filter(db, IncompleteDated))
  {
    if db != [] {
      CurrentStalePartition(db[1..], today);
    }
  }

  // ---------------------------------------------------------------------------
  // Ordering

  function Day(r: Row): int {
    if r.deadline.Some? then r.deadline.value else 0
  }

  predicate InOrder(a: Row, b: Row, ascending: bool) {
    if ascending then Day(a) <= Day(b) else Day(a) >= Day(b)
  }

  predicate Sorted(s: seq<Row>, ascending: bool) {
    forall i, j :: 0 <= i < j < |s| ==> InOrder(s[i], s[j], ascending)
  }

  function Insert(x: Row, s: seq<Row>, ascending: bool): (r: seq<Row>)
    ensures multiset(r) == multiset(s) + multiset{x}
  {
    if s == [] || InOrder(x, s[0], ascending) then [x] + s
    else
      assert s == [s[0]] + s[1..];
      [s[0]] + Insert(x, s[1..], ascending)
  }

  lemma {:induction false} InsertSorted(x: Row, s: seq<Row>, ascending: bool)
    requires Sorted(s, ascending)
    ensures Sorted(Insert(x, s, ascending), ascending)
  {
    if s != [] && !InOrder(x, s[0], ascending) {
      var rest := Insert(x, s[1..], ascending);
      InsertSorted(x, s[1..], ascending);
      forall j | 0 <= j < |rest| ensures InOrder(s[0], rest[j], ascending) {
        assert rest[j] in multiset(rest);
        if rest[j] != x {
          assert rest[j] in multiset(s[1..]);
          var k :| 0 <= k < |s[1..]| && s[1..][k] == rest[j];
          assert s[k + 1] == rest[j];
        }
      }
      var r := [s[0]] + rest;
      forall i, j | 0 <= i < j < |r| ensures InOrder(r[i], r[j], ascending) {
        if i > 0 {
          assert r[i] == rest[i - 1] && r[j] == rest[j - 1];
        }
      }
    }
  }

  function SortRows(s: seq<Row>, ascending: bool): (r: seq<Row>)
    ensures multiset(r) == multiset(s)
    ensures Sorted(r, ascending)
  {
    if s == [] then []
    else
      assert s == [s[0]] + s[1..];
      InsertSorted(s[0], SortRows(s[1..], ascending), ascending);
      Insert(s[0], SortRows(s[1..], ascending), ascending)
  }

  lemma SameMembers(a: seq<Row>, b: seq<Row>)
    requires multiset(a) == multiset(b)
    ensures forall x :: x in a <==> x in b
  {
    assert forall x :: x in a <==> x in multiset(a);
    assert forall x :: x in b <==> x in multiset(b);
  }

  /** What an ordered scope may return: exactly the rows its WHERE clause keeps,
      in an order that respects the ORDER BY (ties in any order). */
  predicate IsScope(db: seq<Row>, w: Where, ascending: bool, r: seq<Row>) {
    multiset(r) == multiset(Filter(db, w)) && Sorted(r, ascending)
  }

  function Current(db: seq<Row>, today: int): (r: seq<Row>)
    ensures IsScope(db, CurrentRows(today), true, r)
    ensures forall x :: x in r ==> x.completedAt.None? && x.deadline.Some? && x.deadline.value >= today
  {
    var r := SortRows(Filter(db, CurrentRows(today)), true);
    SameMembers(r, Filter(db, CurrentRows(today)));
    r
  }

  function Stale(db: seq<Row>, today: int): (r: seq<Row>)
    ensures IsScope(db, StaleRows(today), false, r)
    ensures forall x :: x in r ==> x.completedAt.None? && x.deadline.Some? && x.deadline.value < today
  {
    var r := SortRows(Filter(db, StaleRows(today)), false);
    SameMembers(r, Filter(db, StaleRows(today)));
    r
  }

  function Archive(db: seq<Row>, today: int): (r: seq<Row>)
    ensures IsScope(db, ArchiveRows(today), false, r)
    ensures forall x :: x in r ==> x.completedAt.Some? && x.deadline.Some? && x.deadline.value >= today - 7
  {
    var r := SortRows(Filter(db, ArchiveRows(today)), false);
    SameMembers(r, Filter(db, ArchiveRows(today)));
    r
  }

  /** Whatever order an answer of `current` takes among ties, it starts with
      the earliest deadline still ahead. */
  lemma CurrentStartsEarliest(db: seq<Row>, today: int, r: seq<Row>)
    requires IsScope(db, CurrentRows(today), true, r) && r != []
    ensures forall x :: x in Filter(db, CurrentRows(today)) ==> Day(r[0]) <= Day(x)
  {
    forall x | x in Filter(db, CurrentRows(today)) ensures Day(r[0]) <= Day(x) {
      assert x in multiset(Filter(db, CurrentRows(today)));
      assert x in multiset(r);
      var k :| 0 <= k < |r| && r[k] == x;
      if k > 0 { assert InOrder(r[0], r[k], true); }
    }
  }

  /** Whatever order an answer of `stale` takes among ties, it starts with the
      most recently missed deadline. */
  lemma StaleStartsLatest(db: seq<Row>, today: int, r: seq<Row>)
    requires IsScope(db, StaleRows(today), false, r) && r != []
    ensures forall x :: x in Filter(db, StaleRows(today)) ==> Day(x) <= Day(r[0])
  {
    forall x | x in Filter(db, StaleRows(today)) ensures Day(x) <= Day(r[0]) {
      assert x in multiset(Filter(db, StaleRows(today)));
      assert x in multiset(r);
      var k :| 0 <= k < |r| && r[k] == x;
      if k > 0 { assert InOrder(r[0], r[k], false); }
    }
  }

  // ---------------------------------------------------------------------------
  // Lookup by id

  function FindById(db: seq<Row>, id: int): (r: Option<Row>)
    ensures r.Some? ==> r.value in db && r.value.id == id
    ensures r.None? <==> forall x :: x in db ==> x.id != id
  {
    if db == [] then None
    else if db[0].id == id then Some(db[0])
    else FindById(db[1..], id)
  }

  function RemoveId(db: seq<Row>, id: int): (r: seq<Row>)
    ensures forall x :: x in r <==> x in db && x.id != id
  {
    if db == [] then []
    else (if db[0].id == id then [] else [db[0]]) + RemoveId(db[1..], id)
  }

  function ReplaceId(db: seq<Row>, row: Row): (r: seq<Row>)
    ensures |r| == |db|
    ensures forall i :: 0 <= i < |db| ==> r[i] == (if db[i].id == row.id then row else db[i])
  {
    if db == [] then []
    else [if db[0].id == row.id then row else db[0]] + ReplaceId(db[1..], row)
  }
}
